=== FILE: README.md ===
# STM32F1 bootloader hardware layer, in Dafny

This project models the hardware layer of the STM32F103 USB DFU bootloader,
`STM32F1/hardware.c`. That layer:

- resets the clock tree and brings it up to 72 MHz on the PLL;
- decides whether a user application is present;
- tears the bootloader down and jumps to the application;
- programs and clears NVIC channels;
- erases, programs, locks and unlocks the on-chip flash;
- reports the flash geometry.

Registers are 32-bit bit-vectors. Flash and RAM are a map from byte
address to half-word. Every write, wait, read-back and terminal transfer of
control is an event in an ordered trace. A `Machine` holds:

- the RCC, flash-controller (FPEC) and NVIC registers;
- AIRCR, SysTick's control register;
- memory;
- the trace.

Operations are pure functions or methods from one `Machine` to the next.

Modules follow the components of the file:

- `Registers`: shared vocabulary. Unsigned address arithmetic, half-word
  split and join, the machine, trace events, and the `Collect` projection
  that ordering properties are stated over.
- `Clock`: `systemReset` and `setupCLK`. This includes the bounded PLL-lock
  countdown with its hard-reset recovery.
- `Interrupts`: `nvicInit` and `nvicDisableInterrupts`.
- `FlashEngine`: `flashErasePage`, `flashErasePages`, `flashWriteWord`,
  `flashLock`, `flashUnlock`, `getFlashEnd` and `getFlashPageSize`.
- `Handoff`: `checkUserCode` and `jumpToUser`.

Bit positions follow the STM32F10x reference manual RM0008:

- section 7.3.1 (RCC_CR);
- section 7.3.2 (RCC_CFGR);
- section 3.3.3 of the flash programming manual PM0075 (FLASH_CR).

The NVIC follows the ARMv7-M Architecture Reference Manual (section B1.5.4
for priority grouping).

In `hardware.c`, `setupCLK` does not call `systemReset`: they are separate
operations. The model follows the code. `Clock.ResetThenSetupClk` states what
running them in sequence gives.

## Model

| member | source | states |
|---|---|---|
| Registers.JoinSplit | STM32F1/hardware.c:261-262 | splitting a word into the low and high half-words that `flashWriteWord` programs and joining them again gives the word back |
| Registers.SplitJoin | STM32F1/hardware.c:261-262 | joining two half-words and splitting the result gives each half back |
| Clock.SystemReset | STM32F1/hardware.c:43-54 | CR bit 0 (HSION) ends set; bits 16, 18, 19 and 24 (HSEON, HSEBYP, CSSON, PLLON) end cleared; every other CR bit is kept; CFGR becomes the old CFGR & 0xF8800000; CIR becomes 0 |
| Clock.SystemResetIdempotent | STM32F1/hardware.c:43-54 | resetting the clock registers twice leaves them as resetting once does |
| Clock.ResetClocks | STM32F1/hardware.c:43-54 | on the machine: the RCC takes the reset values; flash controller, NVIC, SysTick and memory are untouched; the trace ends with the CR, CFGR and CIR writes |
| Clock.Countdown | STM32F1/hardware.c:83-84 | the pre-decrementing countdown from `counter` makes between 1 and `counter` tests; every test before the last saw no mask bit; it exits with the counter at 0 exactly when no test within the budget saw a mask bit; otherwise the last test saw one and the counter holds what is left |
| Clock.PollFrom | STM32F1/hardware.c:84 | the countdown's state after `k` unsuccessful tests with `left` on the counter: same exit properties, relative to test `k` |
| Clock.Sample | STM32F1/hardware.c:84 | one read of CR during the countdown sees PLLRDY exactly when the PLL reports lock on that read, and every other bit as software last wrote it |
| Clock.PollHits | STM32F1/hardware.c:83-84 | the countdown's test outcomes: one per poll, HSE_STARTUP_TIMEOUT of them |
| Clock.PllWait | STM32F1/hardware.c:83-84 | the PLL poll starts at HSE_STARTUP_TIMEOUT = 0x500 and tests CR at least once and at most 0x500 times |
| Clock.StartPll | STM32F1/hardware.c:60-77 | before the countdown, HSION, HSEON, HSERDY and PLLON are set in CR; CFGR gains exactly the PLL configuration bits (0x00110400 for a 12 MHz crystal, else 0x001D0400); flash ACR is 0x12; NVIC, SysTick, AIRCR, CIR, FLASH CR and AR and memory are untouched; no effect so far is terminal |
| Clock.SwitchToPll | STM32F1/hardware.c:91-99 | after the countdown, SW requests the PLL and SWS reports it (the SWS wait taken to end), no other CFGR bit changes, APB2ENR is 0x7D, nothing outside RCC CFGR and APB2ENR changes, and bring-up returns |
| Clock.AfterCountdown | STM32F1/hardware.c:84-99 | the hard reset is requested exactly when the countdown exits with the counter at 0, and then it is the last event; otherwise the clock switch follows and bring-up returns |
| Clock.SetupClkWith | STM32F1/hardware.c:56-100 | `setupCLK` for a given poll mask: it halts exactly when the countdown exhausts the counter; a run that returns has CFGR holding the PLL configuration and the switch to the PLL with every other bit as on entry, and has APB2ENR = 0x7D and ACR = 0x12; halted or not, the NVIC, SysTick, AIRCR, CIR, FLASH CR and AR and memory are as on entry |
| Clock.PllTimeoutUnreachable | STM32F1/hardware.c:77-89 | with PLLON set, polling mask 0x03000000 exits on the first test with the counter still at 0x500, whatever the PLL reports, so the hard reset is never reached |
| Clock.SetupClkAsWritten | STM32F1/hardware.c:56-100 | `setupCLK` as written never requests the hard reset, even when the PLL never locks: after exactly one poll it goes on to the clock switch, whose unbounded SWS wait (`:94`) the model takes to end. It returns with no terminal event, CFGR brought up as in SetupClkWith (SW requesting the PLL), and the NVIC, SysTick, AIRCR, CIR, FLASH CR and AR and memory as on entry |
| Clock.LockedPollHits | STM32F1/hardware.c:84 | polling PLLRDY alone, a test succeeds exactly when the PLL reports lock on that read |
| Clock.SetupClk | STM32F1/hardware.c:56-100 | `setupCLK` polling PLLRDY: it requests the hard reset exactly when the PLL fails to lock within 0x500 polls, and the reset is then its last event; otherwise it returns with HSI, HSE, PLL on and locked, and CFGR brought up as in SetupClkWith; the NVIC, SysTick, AIRCR, CIR, FLASH CR and AR and memory are as on entry |
| Clock.ResetThenSetupClk | STM32F1/hardware.c:69-74 | after `systemReset`, a successful bring-up leaves SYSCLK on the PLL fed by the undivided HSE. The multiplier times the crystal frequency is 72 MHz (x9 at 8 MHz, x6 at 12 MHz), AHB is undivided, APB1 = HCLK/2 and APB2 is undivided, as the source comments promise |
| Interrupts.ChannelBitsDisjoint | STM32F1/hardware.c:204-205 | two different channels sharing an enable word have disjoint one-hot bits |
| Interrupts.PriorityNibble | STM32F1/hardware.c:185-190 | the computed priority holds the sub-priority, cut to `0x0F >> tmppriority`, in its low `4 - tmppriority` bits, and the whole preemption priority above them |
| Interrupts.IprMerge | STM32F1/hardware.c:192-199 | after the read-modify-write, the channel's byte is the priority nibble over a zero low nibble, and every other byte of the IPR word is the old byte |
| Interrupts.IprMergeKeepsOtherLanes | STM32F1/hardware.c:195-199 | the IPR read-modify-write keeps every byte lane other than the channel's |
| Interrupts.IprMergeLane | STM32F1/hardware.c:192-199 | the channel's lane holds the priority nibble in its high half, and its low nibble is zero |
| Interrupts.NvicInit | STM32F1/hardware.c:176-206 | only lane `channel & 3` of IPR[channel >> 2] changes; its low nibble is zero and its high nibble is the computed priority; the channel becomes enabled; no other IPR word, pending bit or register changes |
| Interrupts.NvicInitEnablesOnlyItsChannel | STM32F1/hardware.c:204-205 | the ISER write changes the enable state of no other channel |
| Interrupts.PriorityRoundTrip | STM32F1/hardware.c:185-192 | the NVIC reads the stored byte under PRIGROUP as the requested preemption priority and sub-priority, when each fits the bits its grouping allows |
| Interrupts.NibbleDecodes | STM32F1/hardware.c:185-190 | the nibble computed from AIRCR, preemption and sub-priority decodes back to both under every supported PRIGROUP |
| Interrupts.SubPriorityMasked | STM32F1/hardware.c:187-190 | sub-priorities that agree on the bits under `0x0F >> tmppriority` give the same result: no other sub-priority bit reaches the register |
| Interrupts.NvicDisableInterrupts | STM32F1/hardware.c:208-216 | all channels 0..63 end disabled and not pending; priorities stay; SysTick is stopped with its interrupt off and the core clock selected; the writes are ICER[0], ICER[1], ICPR[0], ICPR[1], then STK_CTRL; RCC, flash controller, AIRCR and memory are untouched |
| FlashEngine.ErasePage | STM32F1/hardware.c:232-245 | exactly one erase, of `pageAddr`; nothing is programmed; CR ends with every bit but LOCK clear, and LOCK as it was (or set by the written constants), so a locked controller stays locked; AR ends at the page; the erased cells then hold what the hardware left in them, and every other address keeps its contents; RCC, NVIC, SysTick and AIRCR are untouched; the result is TRUE; control returns |
| FlashEngine.EraseSteps | STM32F1/hardware.c:234-242 | the page-erase sequence erases `pageAddr` once, programs nothing and is not terminal |
| FlashEngine.Overlay | STM32F1/hardware.c:247-256 | memory after a run of erases: an address no erase touched keeps its contents |
| FlashEngine.EraseOrder | STM32F1/hardware.c:249-250 | the page addresses `flashErasePages` erases: exactly `n` of them |
| FlashEngine.EraseOrderDescending | STM32F1/hardware.c:249-250 | without wrap-around and with a positive stride, the erases run strictly downwards, from `pageAddr + stride*(n-1)` to `pageAddr` |
| FlashEngine.ErasePages | STM32F1/hardware.c:247-256 | the erases issued are exactly `pageAddr + wTransferSize*k` for k = n-1 down to 0 (none when n = 0), in that order, using C's unsigned wrap-around; nothing is programmed; after any erase CR has every bit but LOCK clear and LOCK as it was, and with n = 0 the flash controller is untouched; ACR is kept; memory holds, erase by erase, what each left in its cells; RCC, NVIC, SysTick and AIRCR are untouched; the result is TRUE, and the early FALSE exit of `:251` is never taken |
| FlashEngine.WriteWord | STM32F1/hardware.c:258-282 | the high half-word goes to `addr + 2` before the low half-word goes to `addr`; afterwards CR holds `FLASH_CR_PG` with PG cleared, and LOCK as it was; the word at `addr` then holds what the cells hold after programming, and the read-back is of that word; the result is TRUE exactly when the word at `addr` is now `word`; no other address changes |
| FlashEngine.CrWrite | STM32F1/hardware.c:234-242 | a software write to FLASH CR gives every bit but LOCK the written value; LOCK stays set once set, since only the key sequence clears it |
| FlashEngine.ProgramCr | STM32F1/hardware.c:264-274 | after `CR = FLASH_CR_PG` and `CR &= 0xFFFFFFFE`, CR is `FLASH_CR_PG` with PG cleared, and LOCK is as it was (or set by the written constant) |
| FlashEngine.WriteKeepsLock | STM32F1/hardware.c:258-282 | a word write does not unlock a locked controller |
| FlashEngine.ClearPg | STM32F1/hardware.c:274 | `CR &= 0xFFFFFFFE` clears PG and keeps every other bit |
| FlashEngine.ProgramSteps | STM32F1/hardware.c:264-277 | word programming erases nothing, programs the high half then the low half, ends with the read-back, and is not terminal |
| FlashEngine.ProgramHalves | STM32F1/hardware.c:260-271 | after both half-word cells at `addr` are programmed, the word at `addr` reads as the value they hold, and no other address changes |
| FlashEngine.WriteWordVerifies | STM32F1/hardware.c:258-282 | when the hardware reads back what was programmed, the result is TRUE, and the two half-words written, high first at `addr + 2`, join to `word` |
| FlashEngine.Lock | STM32F1/hardware.c:284-290 | LOCK is set and is the only bit CR holds, so PG, PER, MER, OPTPG, OPTER and STRT are off; nothing else changes |
| FlashEngine.Unlock | STM32F1/hardware.c:292-297 | KEYR receives exactly FLASH_KEY1 then FLASH_KEY2; when those are the keys the controller accepts, LOCK is cleared; no other CR bit, register or memory changes |
| FlashEngine.LockUnlock | STM32F1/hardware.c:284-297 | with the accepted keys, unlocking after `flashLock` leaves CR at 0 (unlocked, every FPEC function off), and locking after `flashUnlock` leaves CR at 0x80 |
| FlashEngine.FlashEnd | STM32F1/hardware.c:299-304 | the end address lies between the flash base and 2^31 for every 16-bit size, so the `int` never overflows; the size in KiB is recovered from it |
| FlashEngine.FlashPageSize | STM32F1/hardware.c:306-315 | the page size is 0x800 exactly when the size exceeds 128 KiB, otherwise 0x400 |
| FlashEngine.FlashIsWholePages | STM32F1/hardware.c:299-315 | flash of at most 128 KiB, or of an even number of KiB, is a whole number of pages and starts page-aligned |
| Handoff.StackWindow | STM32F1/hardware.c:143 | the stack check holds exactly when the stack pointer, with bits 31, 30 and 28 cleared, lies in [0x20000000, 0x20020000) |
| Handoff.WindowAccepted | STM32F1/hardware.c:143 | every stack pointer in [0x20000000, 0x2001FFFF] is accepted |
| Handoff.BlankRejected | STM32F1/hardware.c:143 | erased flash (0xFFFFFFFF) and 0 are rejected |
| Handoff.FlashAddressRejected | STM32F1/hardware.c:143 | every address in 0x08000000..0x0FFFFFFF is rejected |
| Handoff.CheckSeesOnlyMaskedBits | STM32F1/hardware.c:143 | the verdict depends only on the bits under 0x2FFE0000 |
| Handoff.AliasesAccepted | STM32F1/hardware.c:143 | 0x30000000 and 0xE0000000, outside SRAM, are accepted |
| Handoff.WrittenStackChecked | STM32F1/hardware.c:140-147 | after a `flashWriteWord` that returned TRUE, `checkUserCode` at that address judges the word that was meant to be written |
| Handoff.ErasedWriteRejected | STM32F1/hardware.c:276-281 | a word write that leaves the cells erased returns FALSE (unless all ones was meant), and `checkUserCode` then rejects the image |
| Handoff.ErasedPageRejected | STM32F1/hardware.c:140-147 | once the page holding the vector table has been erased to all ones, `checkUserCode` rejects it |
| Handoff.CheckUserCode | STM32F1/hardware.c:140-147 | TRUE exactly when the first word of the image, with bits 31, 30 and 28 cleared, points into the 128 KiB window at the base of SRAM |
| Handoff.JumpToUser | STM32F1/hardware.c:149-174 | the entry point is read from `userAddr + 4` first, before any tear-down. The stages follow in order: flash lock, USB interrupt off, NVIC cleared, the USB bus off only without Maple hardware, clock reset. Then MSP is read from `userAddr` and the jump is the last event, using the words the table held on entry. No earlier event is terminal. The whole trace is stated event by event, with 0x80 written to FLASH CR. The flash ends locked, every channel disabled and not pending, SysTick stopped with its interrupt off, and the RCC reset. AIRCR and memory are unchanged. A table that `checkUserCode` accepted is entered with a plausible stack |
| Handoff.TearDown | STM32F1/hardware.c:156-167 | the tear-down's events in source order: 0x80 to FLASH CR, the USB interrupt step, the NVIC and SysTick writes, the USB bus step without Maple hardware, then the three RCC writes. Afterwards the flash is locked, every channel is disabled and not pending, SysTick is stopped, and the clocks are reset; AIRCR and memory are untouched |
| Handoff.HandoffEventStages | STM32F1/hardware.c:149-174 | the hand-off's events show the stages in source order, and none before the jump is terminal |
| Handoff.TeardownStages | STM32F1/hardware.c:156-167 | the tear-down's events show flash lock, USB interrupt, NVIC, optional USB bus and clock reset, in that order |
| Handoff.BusStage | STM32F1/hardware.c:162-164 | the USB bus step is present exactly when not built for Maple hardware |

## Left out

- Busy-waits without a timeout are single `Await` events, taken to end with the awaited flag set. These are the HSERDY wait (`hardware.c:64`), the SWS wait (`:94`) and the flash BSY waits (`:236`, `:239`, `:268-272`).
- `systemHardReset` (`hardware.c:218-229`) is the terminal `HardReset` event. Its AIRCR value is defined outside this file and is not modelled.
- `__MSR_MSP` and the call through the function pointer (`hardware.c:170-173`) are the terminal `Jump(sp, pc)` event.
- `usbDsbISR` and `usbDsbBus` are defined outside this file. They are opaque events, taken to write none of the registers or memory the model holds. `Handoff.JumpToUser` relies on this for its reset RCC, its unchanged AIRCR and the stack word it reads after the tear-down.
- These constants are defined outside this file, so they are parameters: `FLASH_CR_PER`, `FLASH_CR_START`, `FLASH_CR_PG`, `FLASH_KEY1`, `FLASH_KEY2`, `wTransferSize` (the erase stride, not equated with the page size) and `AFIO_MAPR_SWJ_CFG_NO_JTAG_SW`.
- Flash cell behaviour belongs to the hardware: erase-to-ones and the rule that only erased cells can be programmed. What the cells hold after an erase (`cells`) and after `flashWriteWord` programs them (`readBack`) are inputs, which memory then holds.
- FlashEngine.ErasePage: does not tie `cells` to the page at `pageAddr` or to all ones, because the page size and the cells' behaviour belong to the hardware; `Handoff.ErasedPageRejected` states what erase-to-ones means for the vector table.
- FlashEngine.Unlock: a wrong key sequence leaves CR as it was; the bus error and the lock until the next reset that the hardware adds are not modelled.
- The PLL's lock timing is an input: `locked[k]` says whether PLLRDY reads as set on the (k+1)-th poll. Every other CR bit reads as software last wrote it.
- Clock.ResetClocks: records one write per RCC register with its final value. The intermediate read-modify-write values of `hardware.c:46-50` do not appear in the trace.
- Interrupts.NvicInit: requires the AIRCR priority-group field to be at least 3. Below that, `0x4 - tmppriority` wraps around and the preemption priority is shifted by 32 or more bits, which C leaves undefined.
- Interrupts.NvicInit: does not read `NVIC_IRQChannelCmd`, as the source does not.
- Interrupts.NvicDisableInterrupts: the NVIC is modelled for channels 0..63, the two enable and pending words the source writes.
- FlashEngine.ErasePages: requires `wTransferSize * (n - 1)` to fit a C `int`, because that product is a signed `int` whose overflow C leaves undefined.
- Handoff.CheckUserCode: requires the word at `usrAddr` to be in the memory map, because the model's memory is a partial map.
- Handoff.JumpToUser: requires both vector-table words to be in the memory map, for the same reason.
- The following are pin I/O and delay loops and are not part of this model: `setupLEDAndButton`, `setupFLASH`, the GPIO helpers `gpio_write_bit`, `readPin`, `readButtonState`, `strobePin` and `crMask` (`hardware.c:103-137`, `:317-381`).

## Findings

| source | as written | input that shows it | evidently intended | confidence | as-written member | corrected member |
|---|---|---|---|---|---|---|
| STM32F1/hardware.c:84 | the PLL countdown tests `CR & 0x03000000`, i.e. PLLON \| PLLRDY | any run, for example a PLL that never locks (`locked` all false): PLLON was set at line 77, so the first test sees a set bit and the loop exits with the counter at 0x500. The hard reset at lines 86-89 is never requested. Bring-up goes on to the clock switch, whose unbounded SWS wait (line 94) the model takes to end; with a PLL that never locks that wait does not end, so the core hangs instead of resetting | poll PLLRDY (0x02000000) alone, so the hard reset follows a PLL that does not lock within HSE_STARTUP_TIMEOUT polls | not executed; high: follows from the bit values of RM0008 section 7.3.1 | Clock.SetupClkAsWritten, Clock.PllTimeoutUnreachable | Clock.SetupClk |

=== FILE: clock.dfy ===
/**
  Clock bring-up: the reset of the RCC clock configuration (`systemReset`)
  and the oscillator/PLL start-up sequence (`setupCLK`) with its one bounded
  wait, the PLL-lock countdown whose exhaustion triggers a hard reset.

  Bit positions follow sections 7.3.1 (RCC_CR) and 7.3.2 (RCC_CFGR) of the
  STM32F10x reference manual RM0008.
 */
module Clock {
  import opened Registers

  // RCC_CR bits
  const HSION: bv32  := 0x0000_0001
  const HSEON: bv32  := 0x0001_0000
  const HSERDY: bv32 := 0x0002_0000
  const HSEBYP: bv32 := 0x0004_0000
  const CSSON: bv32  := 0x0008_0000
  const PLLON: bv32  := 0x0100_0000
  const PLLRDY: bv32 := 0x0200_0000

  /** The CR bits `systemReset` forces to zero: HSEON, HSEBYP, CSSON, PLLON. */
  const CR_RESET_CLEARED: bv32 := HSEON | HSEBYP | CSSON | PLLON

  /**
    The CFGR bits `systemReset` keeps: bit 23 and bits 27..31, all reserved.
    SW, SWS, HPRE, PPRE1, PPRE2, ADCPRE, PLLSRC, PLLXTPRE, PLLMUL, USBPRE and
    MCO are cleared.
   */
  const CFGR_KEPT: bv32 := 0xF880_0000

  /**
    `systemReset`: HSI on, HSE, its bypass, the clock security system and the
    PLL off, clock configuration back to its reset value, every RCC interrupt
    disabled. All other CR bits are left alone.
   */
  function SystemReset(rcc: Rcc): (r: Rcc)
    ensures r.cr & HSION == HSION
    ensures r.cr & CR_RESET_CLEARED == 0
    ensures r.cr & !(HSION | CR_RESET_CLEARED) == rcc.cr & !(HSION | CR_RESET_CLEARED)
    ensures r.cfgr == rcc.cfgr & CFGR_KEPT
    ensures r.cir == 0
    ensures r.apb2enr == rcc.apb2enr
  {
    var cr := rcc.cr | 0x0000_0001;
    var cfgr := rcc.cfgr & 0xF8FF_0000;
    var cr' := cr & 0xFEF6_FFFF;
    var cr'' := cr' & 0xFFFB_FFFF;
    var cfgr' := cfgr & 0xFF80_FFFF;
    Rcc(cr'', cfgr', 0x0000_0000, rcc.apb2enr)
  }

  /** Resetting the clock configuration a second time changes nothing. */
  lemma SystemResetIdempotent(rcc: Rcc)
    ensures SystemReset(SystemReset(rcc)) == SystemReset(rcc)
  {
  }

  /**
    `systemReset` on the whole machine: the RCC registers take their reset
    values and the trace records the final CR, CFGR and CIR writes.
   */
  function ResetClocks(m: Machine): (r: Machine)
    ensures r.rcc == SystemReset(m.rcc)
    ensures r.fpec == m.fpec && r.nvic == m.nvic && r.stkCtrl == m.stkCtrl && r.aircr == m.aircr && r.mem == m.mem
    ensures r.trace == m.trace + [Write(RccCr, r.rcc.cr), Write(RccCfgr, r.rcc.cfgr), Write(RccCir, 0)]
  {
    var rcc := SystemReset(m.rcc);
    var m1 := Emit(m.(rcc := rcc), Write(RccCr, rcc.cr));
    var m2 := Emit(m1, Write(RccCfgr, rcc.cfgr));
    Emit(m2, Write(RccCir, rcc.cir))
  }

  /** HSE_STARTUP_TIMEOUT: the iteration budget of the PLL-lock countdown. */
  const HSE_STARTUP_TIMEOUT: nat := 0x500

  /** How the countdown ended: how many times CR was read, what the counter held. */
  datatype PollExit = PollExit(polls: nat, counter: nat)

  /**
    The loop `while (((CR & mask) == 0) && --counter);` started with `counter`.
    `hits[k]` is whether the (k+1)-th test sees a `mask` bit set. The loop
    stops on the first such read, or when the pre-decremented counter reaches
    zero; the counter is zero on exit exactly when no read within the budget
    saw a `mask` bit.
   */
  function Countdown(hits: seq<bool>, counter: nat): (e: PollExit)
    requires 1 <= counter <= |hits|
    ensures 1 <= e.polls <= counter
    ensures forall k :: 0 <= k < e.polls - 1 ==> !hits[k]
    ensures e.counter == 0 <==> forall k :: 0 <= k < counter ==> !hits[k]
    ensures e.counter != 0 ==> hits[e.polls - 1] && e.counter == counter - e.polls + 1
    ensures e.counter == 0 ==> e.polls == counter
  {
    PollFrom(hits, 0, counter)
  }

  /**
    The countdown after `k` reads that saw no `mask` bit, with `left` on the
    counter: the next test is `hits[k]`.
   */
  function PollFrom(hits: seq<bool>, k: nat, left: nat): (e: PollExit)
    requires 1 <= left && k + left <= |hits|
    ensures k + 1 <= e.polls <= k + left
    ensures forall j :: k <= j < e.polls - 1 ==> !hits[j]
    ensures e.counter == 0 <==> forall j :: k <= j < k + left ==> !hits[j]
    ensures e.counter != 0 ==> hits[e.polls - 1] && e.counter == left - (e.polls - k) + 1
    ensures e.counter == 0 ==> e.polls == k + left
    decreases left
  {
    if hits[k] then
      PollExit(k + 1, left)
    else if left == 1 then
      PollExit(k + 1, 0)
    else
      PollFrom(hits, k + 1, left - 1)
  }

  /**
    The CR value one poll reads: the value software last wrote, with the
    hardware-owned PLLRDY flag as the PLL reports it on that read.
   */
  function Sample(cr: bv32, lock: bool): (r: bv32)
    ensures r & PLLRDY != 0 <==> lock
    ensures r & !PLLRDY == cr & !PLLRDY
  {
    (cr & !PLLRDY) | (if lock then PLLRDY else 0)
  }

  /**
    Which of the HSE_STARTUP_TIMEOUT polls of CR see a `mask` bit, when the
    PLL reports lock on the (k+1)-th poll exactly when `locked[k]`.
   */
  function PollHits(mask: bv32, cr: bv32, locked: seq<bool>): (hits: seq<bool>)
    requires |locked| >= HSE_STARTUP_TIMEOUT
    ensures |hits| == HSE_STARTUP_TIMEOUT
  {
    seq(HSE_STARTUP_TIMEOUT, k requires 0 <= k < HSE_STARTUP_TIMEOUT => Sample(cr, locked[k]) & mask != 0)
  }

  /** Build-time clock choices and values defined outside this file. */
  datatype ClockConfig = ClockConfig(
    xtal12: bool,        // XTAL12M: a 12 MHz crystal rather than 8 MHz
    swjNoJtag: bv32)     // AFIO_MAPR_SWJ_CFG_NO_JTAG_SW

  /** CFGR bits `setupCLK` sets for the PLL: HSE source, x6 or x9, APB1 = HCLK/2. */
  function PllConfigBits(xtal12: bool): bv32
  {
    if xtal12 then 0x0011_0400 else 0x001D_0400
  }

  /**
    Everything `setupCLK` leaves alone: it writes only RCC CR, CFGR and
    APB2ENR, FLASH ACR and AFIO MAPR, so the NVIC, SysTick, AIRCR, the RCC
    interrupt register, FLASH CR and AR, and memory are as they were.
   */
  predicate OutsideClockKept(before: Machine, after: Machine)
  {
    && after.nvic == before.nvic && after.mem == before.mem
    && after.stkCtrl == before.stkCtrl && after.aircr == before.aircr
    && after.rcc.cir == before.rcc.cir
    && after.fpec.cr == before.fpec.cr && after.fpec.ar == before.fpec.ar
  }

  /** Bring-up either returns to its caller or has requested a hard reset. */
  datatype Bringup = Running(m: Machine) | Halted(m: Machine)

  /**
    The part of `setupCLK` before the countdown: HSE on and ready, flash
    prefetch on, PLL configured and switched on. The wait for HSERDY has no
    timeout and is taken to end with the flag set.
   */
  function StartPll(m: Machine, cfg: ClockConfig): (r: Machine)
    ensures r.rcc.cr & (HSION | HSEON | HSERDY | PLLON) == HSION | HSEON | HSERDY | PLLON
    ensures PllConfigured(m.rcc.cfgr, r.rcc.cfgr, cfg.xtal12)
    ensures r.rcc.apb2enr == m.rcc.apb2enr && r.fpec.acr == 0x0000_0012
    ensures OutsideClockKept(m, r)
    ensures |r.trace| == |m.trace| + 5
    ensures Continues(m.trace, r.trace)
  {
    var cr1 := m.rcc.cr | 0x0001_0001;
    var cfgr1 := m.rcc.cfgr | PllConfigBits(cfg.xtal12);
    var cr2 := (cr1 | HSERDY) | PLLON;
    var steps := [Write(RccCr, cr1), Await(HseReady), Write(FlashAcr, 0x0000_0012), Write(RccCfgr, cfgr1), Write(RccCr, cr2)];
    SetBitsFrame(m.rcc.cfgr, PllConfigBits(cfg.xtal12));
    ContinuesAppend(m.trace, steps);
    m.(rcc := m.rcc.(cr := cr2, cfgr := cfgr1), fpec := m.fpec.(acr := 0x0000_0012), trace := m.trace + steps)
  }

  /**
    The part of `setupCLK` after a successful countdown: SYSCLK switched to
    the PLL (the wait for SWS = PLL has no timeout and is taken to end with
    SWS set), GPIO ports A..E and AFIO clocked, JTAG pins released.
   */
  function SwitchToPll(m: Machine, cfg: ClockConfig): (r: Machine)
    ensures SwitchedToPll(m.rcc.cfgr, r.rcc.cfgr)
    ensures r.rcc.cr == m.rcc.cr && r.rcc.apb2enr == 0x0000_007D && r.fpec == m.fpec
    ensures OutsideClockKept(m, r)
    ensures |r.trace| == |m.trace| + 4
    ensures Continues(m.trace, r.trace)
  {
    var cfgr := m.rcc.cfgr | 0x0000_0002;
    var steps := [Write(RccCfgr, cfgr), Await(SysclkIsPll), Write(RccApb2enr, 0x0000_007D), Write(AfioMapr, cfg.swjNoJtag)];
    ContinuesAppend(m.trace, steps);
    m.(rcc := m.rcc.(cfgr := (cfgr & !SWS_MASK) | SWS_PLL, apb2enr := 0x0000_007D), trace := m.trace + steps)
  }

  /** The PLL countdown on CR as `StartPll` left it, polling `mask`. */
  function PllWait(mask: bv32, cr: bv32, locked: seq<bool>): (e: PollExit)
    requires |locked| >= HSE_STARTUP_TIMEOUT
    ensures 1 <= e.polls <= HSE_STARTUP_TIMEOUT
  {
    Countdown(PollHits(mask, cr, locked), HSE_STARTUP_TIMEOUT)
  }

  /** The CFGR bits bring-up sets: the PLL configuration, SW = PLL and SWS. */
  function BringupCfgrBits(xtal12: bool): bv32
  {
    PllConfigBits(xtal12) | (SW_PLL | SWS_MASK)
  }

  /** CFGR `after` is `before` with the PLL configuration bits set and nothing else changed. */
  predicate PllConfigured(before: bv32, after: bv32, xtal12: bool)
  {
    && after & PllConfigBits(xtal12) == PllConfigBits(xtal12)
    && after & !PllConfigBits(xtal12) == before & !PllConfigBits(xtal12)
  }

  /** CFGR `after` requests the PLL as SYSCLK, reports it in SWS, and nothing else changed. */
  predicate SwitchedToPll(before: bv32, after: bv32)
  {
    && after & SW_PLL == SW_PLL
    && after & SWS_MASK == SWS_PLL
    && after & !(SW_PLL | SWS_MASK) == before & !(SW_PLL | SWS_MASK)
  }

  /**
    CFGR `after` is `before` after the whole bring-up: PLL configured, SYSCLK
    switched to it, every other bit as it was.
   */
  predicate BringupCfgr(before: bv32, after: bv32, xtal12: bool)
  {
    && after & PllConfigBits(xtal12) == PllConfigBits(xtal12)
    && after & SW_PLL == SW_PLL
    && after & SWS_MASK == SWS_PLL
    && after & !BringupCfgrBits(xtal12) == before & !BringupCfgrBits(xtal12)
  }

  /** Configuring the PLL and then switching to it is the whole CFGR bring-up. */
  lemma BringupCfgrCompose(c0: bv32, c1: bv32, c2: bv32, xtal12: bool)
    requires PllConfigured(c0, c1, xtal12) && SwitchedToPll(c1, c2)
    ensures BringupCfgr(c0, c2, xtal12)
  {
  }

  /**
    The part of `setupCLK` from the end of the countdown, which exited as `e`
    with CR last read as `cr`: the countdown's outcome is recorded, then
    either the hard reset or the switch to the PLL.
   */
  method AfterCountdown(m: Machine, m1: Machine, e: PollExit, cr: bv32, cfg: ClockConfig) returns (b: Bringup)
    requires Continues(m.trace, m1.trace) && m1.fpec.acr == 0x0000_0012 && OutsideClockKept(m, m1)
    ensures b.Halted? <==> e.counter == 0
    ensures b.Running? ==> b.m.rcc.cr == cr
    ensures |b.m.trace| > |m1.trace| && b.m.trace[|m1.trace|] == PllCountdown(e.polls, e.counter)
    ensures b.Halted? ==> b.m.trace == m1.trace + [PllCountdown(e.polls, e.counter), HardReset]
    ensures b.Running? ==> SwitchedToPll(m1.rcc.cfgr, b.m.rcc.cfgr)
    ensures b.Running? ==> b.m.rcc.apb2enr == 0x0000_007D && b.m.fpec.acr == 0x0000_0012
    ensures m1.trace <= b.m.trace
    ensures b.Running? ==> Continues(m.trace, b.m.trace)
    ensures OutsideClockKept(m, b.m)
  {
    var m2 := m1.(rcc := m1.rcc.(cr := cr), trace := m1.trace + [PllCountdown(e.polls, e.counter)]);
    if e.counter == 0 {
      b := Halted(m2.(trace := m2.trace + [HardReset]));
    } else {
      ContinuesAppend(m1.trace, [PllCountdown(e.polls, e.counter)]);
      ContinuesTrans(m.trace, m1.trace, m2.trace);
      var r := SwitchToPll(m2, cfg);
      ContinuesTrans(m.trace, m2.trace, r.trace);
      b := Running(r);
    }
  }

  /**
    `setupCLK` with the PLL countdown polling `mask`. `locked[k]` is whether
    the PLL reports lock on the (k+1)-th poll. When the counter runs out the
    core requests a hard reset and runs no further.
   */
  method SetupClkWith(mask: bv32, m: Machine, cfg: ClockConfig, locked: seq<bool>) returns (b: Bringup)
    requires |locked| >= HSE_STARTUP_TIMEOUT
    ensures var m1 := StartPll(m, cfg);
      var e := PllWait(mask, m1.rcc.cr, locked);
      && (b.Halted? <==> e.counter == 0)
      && (b.Running? ==> b.m.rcc.cr == Sample(m1.rcc.cr, locked[e.polls - 1]))
      && |b.m.trace| > |m1.trace| && b.m.trace[|m1.trace|] == PllCountdown(e.polls, e.counter)
    ensures b.Halted? ==> |b.m.trace| > |m.trace| && b.m.trace[|b.m.trace| - 1] == HardReset
    ensures b.Running? ==> BringupCfgr(m.rcc.cfgr, b.m.rcc.cfgr, cfg.xtal12)
    ensures b.Running? ==> b.m.rcc.apb2enr == 0x0000_007D && b.m.fpec.acr == 0x0000_0012
    ensures m.trace <= b.m.trace
    ensures b.Running? ==> Continues(m.trace, b.m.trace)
    ensures OutsideClockKept(m, b.m)
  {
    var m1 := StartPll(m, cfg);
    var e := PllWait(mask, m1.rcc.cr, locked);
    b := AfterCountdown(m, m1, e, Sample(m1.rcc.cr, locked[e.polls - 1]), cfg);
    if b.Running? {
      BringupCfgrCompose(m.rcc.cfgr, m1.rcc.cfgr, b.m.rcc.cfgr, cfg.xtal12);
    }
  }

  // RCC_CFGR fields
  const SW_MASK: bv32  := 0x0000_0003
  const SW_PLL: bv32   := 0x0000_0002
  const SWS_MASK: bv32 := 0x0000_000C
  const SWS_PLL: bv32  := 0x0000_0008

  /** The poll mask as written: PLLON | PLLRDY. */
  const PLL_POLL_MASK_AS_WRITTEN: bv32 := 0x0300_0000

  /**
    As written, the countdown tests PLLON, which the write just before it set:
    the first test ends the loop with the counter untouched, whatever the PLL
    reports.
   */
  lemma PllTimeoutUnreachable(cr: bv32, locked: seq<bool>)
    requires |locked| >= HSE_STARTUP_TIMEOUT
    requires cr & PLLON == PLLON
    ensures PllWait(PLL_POLL_MASK_AS_WRITTEN, cr, locked) == PollExit(1, HSE_STARTUP_TIMEOUT)
  {
    var hits := PollHits(PLL_POLL_MASK_AS_WRITTEN, cr, locked);
    assert Sample(cr, locked[0]) & PLLON == PLLON;
    assert hits[0];
  }

  /**
    `setupCLK` exactly as written, polling PLLON | PLLRDY: even a PLL that
    never locks never leads to the hard reset. After one poll bring-up goes
    on to the clock switch, whose unbounded SWS wait the model takes to end;
    on hardware whose PLL never locks that wait never ends, so the core
    hangs instead of resetting.
   */
  method SetupClkAsWritten(m: Machine, cfg: ClockConfig, locked: seq<bool>) returns (b: Bringup)
    requires |locked| >= HSE_STARTUP_TIMEOUT
    ensures b.Running?
    ensures |b.m.trace| > |m.trace| + 5 && b.m.trace[|m.trace| + 5] == PllCountdown(1, HSE_STARTUP_TIMEOUT)
    ensures Continues(m.trace, b.m.trace)
    ensures BringupCfgr(m.rcc.cfgr, b.m.rcc.cfgr, cfg.xtal12)
    ensures OutsideClockKept(m, b.m)
  {
    PllTimeoutUnreachable(StartPll(m, cfg).rcc.cr, locked);
    b := SetupClkWith(PLL_POLL_MASK_AS_WRITTEN, m, cfg, locked);
  }

  /** Polling PLLRDY alone, a poll sees its bit exactly when the PLL reports lock. */
  lemma LockedPollHits(cr: bv32, locked: seq<bool>)
    requires |locked| >= HSE_STARTUP_TIMEOUT
    ensures forall k :: 0 <= k < HSE_STARTUP_TIMEOUT ==> PollHits(PLLRDY, cr, locked)[k] == locked[k]
  {
    var hits := PollHits(PLLRDY, cr, locked);
    forall k | 0 <= k < HSE_STARTUP_TIMEOUT
      ensures hits[k] == locked[k]
    {
      assert hits[k] == (Sample(cr, locked[k]) & PLLRDY != 0);
    }
  }

  /**
    `setupCLK` with the countdown polling PLLRDY alone, as the timeout and its
    hard-reset recovery evidently intend: the hard reset happens exactly when
    the PLL does not lock within HSE_STARTUP_TIMEOUT polls, and otherwise
    bring-up returns with HSE, PLL and the PLL clock switch in place and no
    other CFGR bit changed.
   */
  method SetupClk(m: Machine, cfg: ClockConfig, locked: seq<bool>) returns (b: Bringup)
    requires |locked| >= HSE_STARTUP_TIMEOUT
    ensures b.Halted? <==> forall k :: 0 <= k < HSE_STARTUP_TIMEOUT ==> !locked[k]
    ensures b.Halted? ==> |b.m.trace| > |m.trace| && b.m.trace[|b.m.trace| - 1] == HardReset
    ensures b.Running? ==> b.m.rcc.cr & (HSION | HSEON | HSERDY | PLLON | PLLRDY) == HSION | HSEON | HSERDY | PLLON | PLLRDY
    ensures b.Running? ==> BringupCfgr(m.rcc.cfgr, b.m.rcc.cfgr, cfg.xtal12)
    ensures b.Running? ==> b.m.rcc.apb2enr == 0x0000_007D && b.m.fpec.acr == 0x0000_0012
    ensures m.trace <= b.m.trace
    ensures b.Running? ==> Continues(m.trace, b.m.trace)
    ensures OutsideClockKept(m, b.m)
  {
    var m1 := StartPll(m, cfg);
    LockedPollHits(m1.rcc.cr, locked);
    var e := PllWait(PLLRDY, m1.rcc.cr, locked);
    b := SetupClkWith(PLLRDY, m, cfg, locked);
    if b.Running? {
      PllReadKeepsBits(m1.rcc.cr, Sample(m1.rcc.cr, locked[e.polls - 1]));
    }
  }

  /** A CR read with PLLRDY set, otherwise as `StartPll` left CR, has the bring-up bits set. */
  lemma PllReadKeepsBits(cr: bv32, seen: bv32)
    requires cr & (HSION | HSEON | HSERDY | PLLON) == HSION | HSEON | HSERDY | PLLON
    requires seen & !PLLRDY == cr & !PLLRDY && seen & PLLRDY == PLLRDY
    ensures seen & (HSION | HSEON | HSERDY | PLLON | PLLRDY) == HSION | HSEON | HSERDY | PLLON | PLLRDY
  {
  }

  /** The crystal frequency in MHz for the build's XTAL12M choice. */
  function HseMHz(xtal12: bool): nat
  {
    if xtal12 then 12 else 8
  }

  /** The PLL multiplication factor CFGR's PLLMUL field (bits 21..18) selects. */
  function PllMultiplier(cfgr: bv32): nat
  {
    var f := (cfgr >> 18) & 0xF;
    if f == 0xF then 16 else f as nat + 2
  }

  /**
    Bring-up from the reset clock configuration gives the clock tree the
    source comments promise. `cfgr` is any CFGR that a successful `SetupClk`
    can leave when it starts from the CFGR `SystemReset` leaves: SYSCLK is
    then the PLL fed by the undivided HSE at 72 MHz (x9 from 8 MHz, x6 from
    12 MHz), AHB undivided, APB1 at half and APB2 undivided.
   */
  lemma ResetThenSetupClk(before: bv32, cfgr: bv32, xtal12: bool)
    requires BringupCfgr(before & CFGR_KEPT, cfgr, xtal12)
    ensures cfgr & SW_MASK == SW_PLL
    ensures cfgr & 0x0001_0000 != 0                          // PLLSRC: HSE
    ensures cfgr & 0x0002_0000 == 0                          // PLLXTPRE: HSE not halved
    ensures HseMHz(xtal12) * PllMultiplier(cfgr) == 72
    ensures (cfgr >> 4) & 0xF == 0                           // HPRE: AHB = SYSCLK
    ensures (cfgr >> 8) & 0x7 == 0x4                         // PPRE1: APB1 = HCLK / 2
    ensures (cfgr >> 11) & 0x7 == 0                          // PPRE2: APB2 = HCLK
  {
  }
}

=== FILE: flash.dfy ===
/**
  The flash programming engine: page erase, multi-page erase, word
  programming with read-back verification, lock and unlock, and the flash
  geometry read from the size identification register.

  The control-register bit values and unlock keys are defined outside the
  file this models and are parameters here. Flash cell behaviour (erase to
  all ones, programming only erased cells) is the hardware's: what the
  cells hold after an erase (`cells`) and after programming (`readBack`)
  are inputs. Memory takes those values, so a later read of an erased page
  or of a failed write sees what the cells really hold.
 */
module FlashEngine {
  import opened Registers

  /** FLASH_CR_PG, FLASH_CR_PER, FLASH_CR_START, FLASH_KEY1 and FLASH_KEY2. */
  datatype FlashConsts = FlashConsts(pg: bv32, per: bv32, start: bv32, key1: bv32, key2: bv32)

  /** A flash operation's boolean result and the machine after it. */
  datatype Done = Done(ok: bool, m: Machine)

  // FLASH_CR bits (section 3.3.3 of the STM32F10xxx flash programming manual PM0075)
  const CR_PG: bv32    := 0x0000_0001
  const CR_PER: bv32   := 0x0000_0002
  const CR_MER: bv32   := 0x0000_0004
  const CR_OPTPG: bv32 := 0x0000_0010
  const CR_OPTER: bv32 := 0x0000_0020
  const CR_STRT: bv32  := 0x0000_0040
  const CR_LOCK: bv32  := 0x0000_0080

  /**
    A software write of `v` to FLASH CR. Software can set LOCK but only the
    key sequence clears it, so a set LOCK stays set; every other bit takes
    its value from `v`.
   */
  function CrWrite(cr: bv32, v: bv32): (r: bv32)
    ensures r & CR_LOCK == (cr | v) & CR_LOCK
    ensures r & !CR_LOCK == v & !CR_LOCK
  {
    v | (cr & CR_LOCK)
  }

  /** The page address an event erases, if it is the write of one to AR. */
  function ErasedBy(e: Event): seq<u32>
  {
    if e.EraseAddress? then [e.page] else []
  }

  /** The page addresses erased in trace `t`, in order. */
  function Erases(t: seq<Event>): seq<u32>
  {
    Collect(t, ErasedBy)
  }

  /** The half-word an event programs, if it is a half-word write. */
  function ProgrammedBy(e: Event): seq<(u32, bv16)>
  {
    if e.HalfWordWrite? then [(e.addr, e.half)] else []
  }

  /** The half-word writes in trace `t`, in order, as (address, value) pairs. */
  function HalfWrites(t: seq<Event>): seq<(u32, bv16)>
  {
    Collect(t, ProgrammedBy)
  }

  /**
    `flashErasePage`: page-erase mode, wait, the page address into AR, start,
    wait, mode cleared. Exactly one erase, of `pageAddr`; the result is
    always TRUE since the erase is not read back. `cells` is what the erased
    cells hold afterwards (all ones on working hardware); every other
    address keeps its contents.
   */
  method ErasePage(m: Machine, c: FlashConsts, pageAddr: u32, cells: Memory) returns (d: Done)
    ensures d.ok
    ensures d.m.fpec.cr & !CR_LOCK == 0 && d.m.fpec.cr & CR_LOCK == (m.fpec.cr | c.per | c.start) & CR_LOCK
    ensures d.m.fpec.ar == pageAddr && d.m.fpec.acr == m.fpec.acr
    ensures Erases(d.m.trace) == Erases(m.trace) + [pageAddr]
    ensures HalfWrites(d.m.trace) == HalfWrites(m.trace)
    ensures d.m.mem == m.mem + cells
    ensures forall a :: a in m.mem && a !in cells ==> d.m.mem[a] == m.mem[a]
    ensures d.m.rcc == m.rcc && d.m.nvic == m.nvic && d.m.stkCtrl == m.stkCtrl && d.m.aircr == m.aircr
    ensures Continues(m.trace, d.m.trace)
  {
    var steps := EraseSteps(c, pageAddr);
    var cr := CrWrite(CrWrite(CrWrite(m.fpec.cr, c.per), c.start | c.per), 0);
    var r := m.(fpec := m.fpec.(cr := cr, ar := pageAddr), mem := m.mem + cells, trace := m.trace + steps);
    assert Erases(r.trace) == Erases(m.trace) + [pageAddr] by {
      CollectAppend(m.trace, steps, ErasedBy);
    }
    assert HalfWrites(r.trace) == HalfWrites(m.trace) by {
      CollectAppend(m.trace, steps, ProgrammedBy);
    }
    assert forall i :: |m.trace| <= i < |r.trace| ==> r.trace[i] == steps[i - |m.trace|];
    d := Done(true, r);
  }

  /**
    The effects of `flashErasePage` in order: PER set, wait, the page address
    into AR, PER and STRT set, wait, CR cleared. The one erase is of
    `pageAddr`, and nothing is programmed.
   */
  function EraseSteps(c: FlashConsts, pageAddr: u32): (s: seq<Event>)
    ensures Collect(s, ErasedBy) == [pageAddr]
    ensures Collect(s, ProgrammedBy) == []
    ensures forall i :: 0 <= i < |s| ==> !Terminal(s[i])
  {
    var before := [Write(FlashCr, c.per), Await(FlashIdle)];
    var after := [Write(FlashCr, c.start | c.per), Await(FlashIdle), Write(FlashCr, 0)];
    var s := before + [EraseAddress(pageAddr)] + after;
    assert Collect(s, ErasedBy) == [pageAddr] by {
      CollectThrough(before, EraseAddress(pageAddr), after, ErasedBy);
      CollectNone(before, ErasedBy);
    }
    assert Collect(s, ProgrammedBy) == [] by {
      CollectNone(s, ProgrammedBy);
    }
    s
  }

  /**
    The addresses `flashErasePages(pageAddr, n)` erases, in order: `pageAddr
    + stride * k` for k = n-1 down to 0, in unsigned 32-bit arithmetic.
   */
  function EraseOrder(pageAddr: u32, stride: nat, n: nat): (s: seq<u32>)
    ensures |s| == n
  {
    seq(n, i requires 0 <= i < n => Offset(pageAddr, stride * (n - 1 - i)))
  }

  /**
    Without wrap-around and with a positive stride the erases run strictly
    downwards and finish at `pageAddr`.
   */
  lemma EraseOrderDescending(pageAddr: u32, stride: nat, n: nat)
    requires stride > 0 && n > 0 && pageAddr + stride * (n - 1) < ADDRESS_SPACE
    ensures var s := EraseOrder(pageAddr, stride, n);
      && s[n - 1] == pageAddr
      && s[0] == pageAddr + stride * (n - 1)
      && forall i, j :: 0 <= i < j < n ==> s[i] > s[j]
  {
    var s := EraseOrder(pageAddr, stride, n);
    forall i | 0 <= i < n
      ensures s[i] == pageAddr + stride * (n - 1 - i)
    {
      MulMonotone(stride, n - 1 - i, n - 1);
      var k := stride * (n - 1 - i);
      assert s[i] == Offset(pageAddr, k);
      assert pageAddr + k < ADDRESS_SPACE;
    }
    forall i, j | 0 <= i < j < n
      ensures s[i] > s[j]
    {
      MulMonotone(stride, n - 1 - j, n - 1 - i);
    }
  }

  /** The erase order's first `n - k` pages are its first `n - k - 1` and then page `k`. */
  lemma EraseOrderStep(pageAddr: u32, stride: nat, n: nat, k: nat)
    requires k < n
    ensures EraseOrder(pageAddr, stride, n)[..n - k]
         == EraseOrder(pageAddr, stride, n)[..n - k - 1] + [Offset(pageAddr, stride * k)]
  {
  }

  /**
    Memory after erases that left `cells[0]`, `cells[1]`, ... in that order:
    a later erase overrides an earlier one, and an address no erase touched
    keeps its contents.
   */
  function Overlay(mem: Memory, cells: seq<Memory>): (r: Memory)
    ensures forall a :: a in mem && (forall i :: 0 <= i < |cells| ==> a !in cells[i]) ==> a in r && r[a] == mem[a]
  {
    if |cells| == 0 then mem else Overlay(mem, cells[..|cells| - 1]) + cells[|cells| - 1]
  }

  /** Scaling by a positive stride keeps the order of offsets. */
  lemma MulMonotone(stride: nat, a: nat, b: nat)
    requires stride > 0 && a <= b
    ensures stride * a <= stride * b
    ensures a < b ==> stride * a < stride * b
  {
    assert stride * b == stride * a + stride * (b - a);
  }

  /**
    `flashErasePages(pageAddr, n)`: `while (n-- > 0)` erases from the highest
    page down, stopping at the first page whose erase fails. `stride` is
    wTransferSize; the C product `wTransferSize * n` is an `int` and must not
    overflow. `cells[i]` is what the i-th erase leaves in the cells it erased.
   */
  method ErasePages(m: Machine, c: FlashConsts, stride: nat, pageAddr: u32, n: u16, cells: seq<Memory>) returns (d: Done)
    requires n == 0 || stride * (n - 1) < 0x8000_0000
    requires |cells| == n
    ensures d.ok
    ensures Erases(d.m.trace) == Erases(m.trace) + EraseOrder(pageAddr, stride, n)
    ensures HalfWrites(d.m.trace) == HalfWrites(m.trace)
    ensures n > 0 ==> d.m.fpec.cr & !CR_LOCK == 0 && d.m.fpec.cr & CR_LOCK == (m.fpec.cr | c.per | c.start) & CR_LOCK
    ensures d.m.fpec.acr == m.fpec.acr
    ensures n == 0 ==> d.m.fpec == m.fpec
    ensures d.m.mem == Overlay(m.mem, cells)
    ensures d.m.rcc == m.rcc && d.m.nvic == m.nvic && d.m.stkCtrl == m.stkCtrl && d.m.aircr == m.aircr
    ensures Continues(m.trace, d.m.trace)
  {
    var k: int := n;
    var cur := m;
    while k > 0
      invariant 0 <= k <= n
      invariant Erases(cur.trace) == Erases(m.trace) + EraseOrder(pageAddr, stride, n)[..n - k]
      invariant HalfWrites(cur.trace) == HalfWrites(m.trace)
      invariant k < n ==> cur.fpec.cr & !CR_LOCK == 0 && cur.fpec.cr & CR_LOCK == (m.fpec.cr | c.per | c.start) & CR_LOCK
      invariant cur.fpec.acr == m.fpec.acr
      invariant k == n ==> cur.fpec == m.fpec
      invariant cur.mem == Overlay(m.mem, cells[..n - k])
      invariant cur.rcc == m.rcc && cur.nvic == m.nvic && cur.stkCtrl == m.stkCtrl && cur.aircr == m.aircr
      invariant Continues(m.trace, cur.trace)
    {
      k := k - 1;
      var next := Offset(pageAddr, stride * k);
      var page := ErasePage(cur, c, next, cells[n - 1 - k]);
      if !page.ok {
        d := Done(false, page.m);
        return;
      }
      EraseOrderStep(pageAddr, stride, n, k);
      assert cells[..n - k][..n - k - 1] == cells[..n - k - 1];
      ContinuesTrans(m.trace, cur.trace, page.m.trace);
      cur := page.m;
    }
    assert EraseOrder(pageAddr, stride, n)[..n] == EraseOrder(pageAddr, stride, n);
    assert cells[..n] == cells;
    d := Done(true, cur);
  }

  /**
    `flashWriteWord(addr, word)`: programming mode on, the high half-word to
    `addr + 2`, then the low half-word to `addr`, each after a wait; then
    only the PG bit is cleared from CR and the word at `addr` is read back.
    `readBack` is what the cells hold once programming ends; it equals
    `word` unless the write failed. The result is TRUE exactly when the
    word now at `addr` is `word`.
   */
  function WriteWord(m: Machine, c: FlashConsts, addr: u32, word: bv32, readBack: bv32): (d: Done)
    ensures Readable(d.m.mem, addr) && ReadWord(d.m.mem, addr) == readBack
    ensures d.ok <==> ReadWord(d.m.mem, addr) == word
    ensures HalfWrites(d.m.trace) == HalfWrites(m.trace) + [(Offset(addr, 2), HighHalf(word)), (addr, LowHalf(word))]
    ensures d.m.fpec.cr == ProgramCr(m.fpec.cr, c.pg)
    ensures d.m.fpec.acr == m.fpec.acr && d.m.fpec.ar == m.fpec.ar
    ensures d.m.mem.Keys == m.mem.Keys + {addr, Offset(addr, 2)}
    ensures forall a :: a in m.mem && a != addr && a != Offset(addr, 2) ==> d.m.mem[a] == m.mem[a]
    ensures Erases(d.m.trace) == Erases(m.trace)
    ensures d.m.trace[|d.m.trace| - 1] == WordRead(addr, ReadWord(d.m.mem, addr))
    ensures d.m.rcc == m.rcc && d.m.nvic == m.nvic && d.m.stkCtrl == m.stkCtrl && d.m.aircr == m.aircr
    ensures Continues(m.trace, d.m.trace)
  {
    var steps := ProgramSteps(c.pg, CrWrite(m.fpec.cr, c.pg), addr, word, readBack);
    var r := m.(fpec := m.fpec.(cr := ProgramCr(m.fpec.cr, c.pg)), mem := ProgramHalves(m.mem, addr, readBack), trace := m.trace + steps);
    assert Erases(r.trace) == Erases(m.trace) by {
      CollectAppend(m.trace, steps, ErasedBy);
    }
    assert HalfWrites(r.trace) == HalfWrites(m.trace) + Collect(steps, ProgrammedBy) by {
      CollectAppend(m.trace, steps, ProgrammedBy);
    }
    assert forall i :: |m.trace| <= i < |r.trace| ==> r.trace[i] == steps[i - |m.trace|];
    Done(readBack == word, r)
  }

  /**
    FLASH CR after `flashWriteWord`: `CR = pg`, then `CR &= 0xFFFFFFFE`.
    LOCK is kept, and every other bit is `pg` with PG cleared.
   */
  function ProgramCr(cr: bv32, pg: bv32): (r: bv32)
    ensures r & CR_LOCK == (cr | pg) & CR_LOCK
    ensures r & !CR_LOCK == ClearPg(pg) & !CR_LOCK
  {
    var held := CrWrite(cr, pg);
    CrWrite(held, ClearPg(held))
  }

  /** A word write does not unlock a locked controller. */
  lemma WriteKeepsLock(m: Machine, c: FlashConsts, addr: u32, word: bv32, readBack: bv32)
    requires m.fpec.cr & CR_LOCK == CR_LOCK
    ensures WriteWord(m, c, addr, word, readBack).m.fpec.cr & CR_LOCK == CR_LOCK
  {
  }

  /** `CR &= 0xFFFFFFFE`: PG cleared, every other bit kept. */
  function ClearPg(cr: bv32): (r: bv32)
    ensures r & CR_PG == 0
    ensures r & !CR_PG == cr & !CR_PG
  {
    cr & 0xFFFF_FFFE
  }

  /**
    The effects of `flashWriteWord` in order: PG set, wait, high half-word,
    wait, low half-word, wait, PG cleared, read-back. `held` is CR as the
    read-modify-write that clears PG reads it. Nothing is erased and exactly
    the two half-words are programmed, high first.
   */
  function ProgramSteps(pg: bv32, held: bv32, addr: u32, word: bv32, readBack: bv32): (s: seq<Event>)
    ensures Collect(s, ErasedBy) == []
    ensures Collect(s, ProgrammedBy) == [(Offset(addr, 2), HighHalf(word)), (addr, LowHalf(word))]
    ensures |s| > 0 && s[|s| - 1] == WordRead(addr, readBack)
    ensures forall i :: 0 <= i < |s| ==> !Terminal(s[i])
  {
    var hi := HalfWordWrite(Offset(addr, 2), HighHalf(word));
    var lo := HalfWordWrite(addr, LowHalf(word));
    var first := [Write(FlashCr, pg), Await(FlashIdle)];
    var last := [Await(FlashIdle), Write(FlashCr, ClearPg(held)), WordRead(addr, readBack)];
    var s := [Write(FlashCr, pg), Await(FlashIdle), hi, Await(FlashIdle), lo] + last;
    assert Collect(s, ErasedBy) == [] by {
      CollectNone(s, ErasedBy);
    }
    assert Collect(s, ProgrammedBy) == [(hi.addr, hi.half), (lo.addr, lo.half)] by {
      var upper := first + [hi] + [Await(FlashIdle)];
      assert s == upper + [lo] + last;
      CollectThrough(upper, lo, last, ProgrammedBy);
      CollectThrough(first, hi, [Await(FlashIdle)], ProgrammedBy);
      CollectNone(first, ProgrammedBy);
    }
    s
  }

  /**
    The memory after the two half-word cells at `addr` are programmed and
    end up holding `stored`, little-endian: the word at `addr` reads as
    `stored` and no other address changes.
   */
  function ProgramHalves(mem: Memory, addr: u32, stored: bv32): (r: Memory)
    ensures Readable(r, addr) && ReadWord(r, addr) == stored
    ensures r.Keys == mem.Keys + {addr, Offset(addr, 2)}
    ensures forall a :: a in mem && a != addr && a != Offset(addr, 2) ==> r[a] == mem[a]
  {
    JoinSplit(stored);
    assert Offset(addr, 2) != addr;
    mem[Offset(addr, 2) := HighHalf(stored)][addr := LowHalf(stored)]
  }

  /**
    When the hardware returns what was programmed, the verification
    succeeds: the two half-words written, high first, join back to `word`.
   */
  lemma WriteWordVerifies(m: Machine, c: FlashConsts, addr: u32, word: bv32)
    ensures var d := WriteWord(m, c, addr, word, word);
      var hw := HalfWrites(d.m.trace)[|HalfWrites(m.trace)|..];
      d.ok && |hw| == 2 && JoinHalves(hw[0].1, hw[1].1) == word && hw[0].0 == Offset(hw[1].0, 2)
  {
    JoinSplit(word);
  }

  /**
    `flashLock`: every FPEC function off and the controller locked; LOCK is
    the only bit CR holds.
   */
  function Lock(m: Machine): (r: Machine)
    ensures r.fpec.cr & CR_LOCK == CR_LOCK
    ensures r.fpec.cr & (CR_PG | CR_PER | CR_MER | CR_OPTPG | CR_OPTER | CR_STRT) == 0
    ensures r.fpec.cr & !CR_LOCK == 0
    ensures r.fpec.acr == m.fpec.acr && r.fpec.ar == m.fpec.ar
    ensures r.rcc == m.rcc && r.nvic == m.nvic && r.stkCtrl == m.stkCtrl && r.mem == m.mem && r.aircr == m.aircr
    ensures r.trace == m.trace + [Write(FlashCr, r.fpec.cr)]
  {
    Emit(m.(fpec := m.fpec.(cr := CrWrite(m.fpec.cr, 0x0000_0080))), Write(FlashCr, 0x0000_0080))
  }

  /** The key an event writes, if it is a write to KEYR. */
  function KeyOf(e: Event): seq<bv32>
  {
    if e.Write? && e.reg == FlashKeyr then [e.value] else []
  }

  /** The values written to KEYR in trace `t`, in order. */
  function KeyWrites(t: seq<Event>): seq<bv32>
  {
    Collect(t, KeyOf)
  }

  /**
    The key sequence the flash controller accepts: KEY1 then KEY2, as the
    STM32F10xxx flash programming manual PM0075 fixes them.
   */
  const FPEC_KEY1: bv32 := 0x4567_0123
  const FPEC_KEY2: bv32 := 0xCDEF_89AB

  /** The program's key constants are the ones the controller accepts. */
  predicate KeysMatch(c: FlashConsts)
  {
    c.key1 == FPEC_KEY1 && c.key2 == FPEC_KEY2
  }

  /**
    `flashUnlock`: the two keys to KEYR, first key first, with nothing
    between them. The controller then clears LOCK in CR when the keys are
    the ones it accepts; no other bit and no other register or memory
    changes.
   */
  function Unlock(m: Machine, c: FlashConsts): (r: Machine)
    ensures KeyWrites(r.trace) == KeyWrites(m.trace) + [c.key1, c.key2]
    ensures |r.trace| == |m.trace| + 2 && m.trace <= r.trace
    ensures KeysMatch(c) ==> r.fpec.cr & CR_LOCK == 0
    ensures !KeysMatch(c) ==> r.fpec.cr == m.fpec.cr
    ensures r.fpec.cr & !CR_LOCK == m.fpec.cr & !CR_LOCK
    ensures r.(trace := m.trace, fpec := m.fpec) == m && r.fpec.acr == m.fpec.acr && r.fpec.ar == m.fpec.ar
  {
    var steps := [Write(FlashKeyr, c.key1), Write(FlashKeyr, c.key2)];
    CollectSnoc(m.trace + [Write(FlashKeyr, c.key1)], Write(FlashKeyr, c.key2), KeyOf);
    CollectSnoc(m.trace, Write(FlashKeyr, c.key1), KeyOf);
    assert m.trace + steps == m.trace + [Write(FlashKeyr, c.key1)] + [Write(FlashKeyr, c.key2)];
    var cr := if KeysMatch(c) then m.fpec.cr & !CR_LOCK else m.fpec.cr;
    m.(fpec := m.fpec.(cr := cr), trace := m.trace + steps)
  }

  /**
    Locking and then unlocking with the accepted keys leaves CR clear: the
    controller unlocked with every FPEC function off. Unlocking and then
    locking leaves it locked.
   */
  lemma LockUnlock(m: Machine, c: FlashConsts)
    requires KeysMatch(c)
    ensures Unlock(Lock(m), c).fpec.cr == 0
    ensures Lock(Unlock(m, c)).fpec.cr == CR_LOCK
  {
  }

  /** The flash base address. */
  const FLASH_BASE: int := 0x0800_0000

  /**
    `getFlashEnd`: the first address past flash, from the size register in
    KiB. It fits a C `int` for every 16-bit size, and the size can be read
    back from it.
   */
  function FlashEnd(sizeKb: u16): (r: int)
    ensures FLASH_BASE <= r < 0x8000_0000
    ensures (r - FLASH_BASE) % 1024 == 0 && (r - FLASH_BASE) / 1024 == sizeKb
  {
    sizeKb * 1024 + 0x0800_0000
  }

  /** `getFlashPageSize`: 2 KiB pages above 128 KiB of flash, 1 KiB pages otherwise. */
  function FlashPageSize(sizeKb: u16): (r: int)
    ensures r == 0x800 || r == 0x400
    ensures r == 0x800 <==> sizeKb > 128
  {
    if sizeKb > 128 then 0x800 else 0x400
  }

  /**
    Flash of up to 128 KiB, or of an even number of KiB, is a whole number of
    pages; every page then starts page-aligned from the flash base.
   */
  lemma FlashIsWholePages(sizeKb: u16)
    requires sizeKb <= 128 || sizeKb % 2 == 0
    ensures (FlashEnd(sizeKb) - FLASH_BASE) % FlashPageSize(sizeKb) == 0
    ensures FLASH_BASE % FlashPageSize(sizeKb) == 0
  {
  }
}

=== FILE: handoff.dfy ===
/**
  Handing the processor to the user program: the check that a plausible
  application is present, and the tear-down and jump into it.

  The user image starts with a Cortex-M vector table: the initial main stack
  pointer at offset 0, the reset handler's address at offset 4.
 */
module Handoff {
  import opened Registers
  import opened FlashEngine
  import opened Interrupts
  import opened Clock

  /** The mask and expected value `checkUserCode` compares the stack pointer with. */
  const STACK_MASK: bv32  := 0x2FFE_0000
  const STACK_MATCH: bv32 := 0x2000_0000

  /** First SRAM address, and the end of the 128 KiB window the check admits. */
  const SRAM_BASE: bv32 := 0x2000_0000
  const STACK_WINDOW_END: bv32 := 0x2002_0000

  /** The bits the check ignores: 31, 30 and 28. */
  const STACK_IGNORED: bv32 := 0xD000_0000

  /** The comparison `checkUserCode` makes on the stack pointer. */
  predicate IsPlausibleStack(sp: bv32)
  {
    sp & STACK_MASK == STACK_MATCH
  }

  /**
    The check in address terms: with bits 31, 30 and 28 cleared, the stack
    pointer lies in the 128 KiB window starting at the base of SRAM.
   */
  lemma StackWindow(sp: bv32)
    ensures IsPlausibleStack(sp) <==> SRAM_BASE <= sp & !STACK_IGNORED < STACK_WINDOW_END
  {
  }

  /** Every stack pointer inside the window is accepted. */
  lemma WindowAccepted(sp: bv32)
    requires SRAM_BASE <= sp < STACK_WINDOW_END
    ensures IsPlausibleStack(sp)
  {
  }

  /** Erased flash (all ones) and a zero word are rejected. */
  lemma BlankRejected()
    ensures !IsPlausibleStack(0xFFFF_FFFF)
    ensures !IsPlausibleStack(0x0000_0000)
  {
  }

  /** A word that is an address in the flash region (0x08000000..0x0FFFFFFF) is rejected. */
  lemma FlashAddressRejected(sp: bv32)
    requires sp & 0xF800_0000 == 0x0800_0000
    ensures !IsPlausibleStack(sp)
  {
  }

  /** Only the masked bits decide: stack pointers agreeing on them are judged alike. */
  lemma CheckSeesOnlyMaskedBits(a: bv32, b: bv32)
    requires a & STACK_MASK == b & STACK_MASK
    ensures IsPlausibleStack(a) <==> IsPlausibleStack(b)
  {
  }

  /**
    The ignored bits let addresses outside SRAM through: 0x30000000 and
    0xE0000000 (the system region) pass the check.
   */
  lemma AliasesAccepted()
    ensures IsPlausibleStack(0x3000_0000) && !(SRAM_BASE <= 0x3000_0000 < STACK_WINDOW_END)
    ensures IsPlausibleStack(0xE000_0000) && !(SRAM_BASE <= 0xE000_0000 < STACK_WINDOW_END)
  {
  }

  /**
    `checkUserCode(usrAddr)`: the word at `usrAddr` is taken as the user
    program's initial stack pointer; TRUE when it points into the SRAM
    window, up to the bits the check ignores.
   */
  function CheckUserCode(mem: Memory, usrAddr: u32): (ok: bool)
    requires Readable(mem, usrAddr)
    ensures ok <==> SRAM_BASE <= ReadWord(mem, usrAddr) & !STACK_IGNORED < STACK_WINDOW_END
  {
    StackWindow(ReadWord(mem, usrAddr));
    IsPlausibleStack(ReadWord(mem, usrAddr))
  }

  /**
    A stack pointer programmed by `flashWriteWord` that reported success is
    judged by `checkUserCode` as the word that was meant to be written.
   */
  lemma WrittenStackChecked(m: Machine, c: FlashConsts, addr: u32, word: bv32, readBack: bv32)
    ensures var d := WriteWord(m, c, addr, word, readBack);
      d.ok ==> (CheckUserCode(d.m.mem, addr) <==> IsPlausibleStack(word))
  {
  }

  /**
    A write that left the cells erased fails, unless all ones was the word
    meant, and `checkUserCode` then rejects the image.
   */
  lemma ErasedWriteRejected(m: Machine, c: FlashConsts, addr: u32, word: bv32)
    ensures var d := WriteWord(m, c, addr, word, 0xFFFF_FFFF);
      (d.ok <==> word == 0xFFFF_FFFF) && !CheckUserCode(d.m.mem, addr)
  {
    BlankRejected();
  }

  /**
    A vector table whose page was erased to all ones, as working hardware
    leaves it, is rejected by `checkUserCode`.
   */
  lemma ErasedPageRejected(mem: Memory, cells: Memory, addr: u32)
    requires addr in cells && Offset(addr, 2) in cells
    requires cells[addr] == 0xFFFF && cells[Offset(addr, 2)] == 0xFFFF
    ensures Readable(mem + cells, addr) && !CheckUserCode(mem + cells, addr)
  {
    BlankRejected();
  }

  /** The stage of the hand-off an event belongs to. */
  datatype Stage =
    | VectorRead | FlashLocked | UsbIsrOff | NvicCleared | UsbBusOff | ClocksReset | Jumped

  /** The hand-off stage an event starts, if any. */
  function StageOf(e: Event): seq<Stage>
  {
    match e
    case WordRead(_, _) => [VectorRead]
    case Write(FlashCr, _) => [FlashLocked]
    case UsbIsrDisabled => [UsbIsrOff]
    case Write(NvicIcer(0), _) => [NvicCleared]
    case UsbBusDisabled => [UsbBusOff]
    case Write(RccCr, _) => [ClocksReset]
    case Jump(_, _) => [Jumped]
    case _ => []
  }

  /** The stages of the hand-off, in order, with or without the USB bus step. */
  function HandoffStages(mapleHardware: bool): seq<Stage>
  {
    [VectorRead, FlashLocked, UsbIsrOff, NvicCleared]
    + (if mapleHardware then [] else [UsbBusOff])
    + [ClocksReset, VectorRead, Jumped]
  }

  /**
    `jumpToUser(userAddr)`: read the reset handler's address from the
    vector table, lock the flash, disable the USB interrupt, disable and
    clear every NVIC channel and stop SysTick, switch the USB bus off
    unless built for Maple hardware, reset the clocks, then load the main
    stack pointer from the vector table and jump to the reset handler.

    Nothing in the tear-down writes memory, so the stack pointer and entry
    point are the words the table held on entry; a table `checkUserCode`
    accepted is entered with a plausible stack.
   */
  method JumpToUser(m: Machine, userAddr: u32, mapleHardware: bool) returns (r: Machine)
    requires m.Valid()
    requires Readable(m.mem, userAddr) && Readable(m.mem, Offset(userAddr, 4))
    ensures |r.trace| > |m.trace| + 2
    ensures r.trace[|m.trace|] == WordRead(Offset(userAddr, 4), ReadWord(m.mem, Offset(userAddr, 4)))
    ensures r.trace[|r.trace| - 2] == WordRead(userAddr, ReadWord(m.mem, userAddr))
    ensures r.trace[|r.trace| - 1] == Jump(ReadWord(m.mem, userAddr), ReadWord(m.mem, Offset(userAddr, 4)))
    ensures r.trace == m.trace + [WordRead(Offset(userAddr, 4), ReadWord(m.mem, Offset(userAddr, 4)))]
                      + TeardownEvents(CR_LOCK, mapleHardware, r.rcc.cr, r.rcc.cfgr)
                      + [WordRead(userAddr, ReadWord(m.mem, userAddr))]
                      + [Jump(ReadWord(m.mem, userAddr), ReadWord(m.mem, Offset(userAddr, 4)))]
    ensures Continues(m.trace, r.trace[..|r.trace| - 1])
    ensures Collect(r.trace[|m.trace|..], StageOf) == HandoffStages(mapleHardware)
    ensures CheckUserCode(m.mem, userAddr) ==> IsPlausibleStack(r.trace[|r.trace| - 1].sp)
    ensures r.fpec.cr == CR_LOCK
    ensures r.Valid()
    ensures forall c: bv8 :: EnableWord(c) < 2 ==> !IsEnabled(r.nvic, c) && !IsPending(r.nvic, c)
    ensures r.stkCtrl & (STK_ENABLE | STK_TICKINT) == 0
    ensures r.rcc == SystemReset(m.rcc)
    ensures r.aircr == m.aircr && r.mem == m.mem
  {
    var pc := ReadWord(m.mem, Offset(userAddr, 4));
    var vector := WordRead(Offset(userAddr, 4), pc);
    var t := TearDown(m.(trace := m.trace + [vector]), mapleHardware);
    var sp := ReadWord(t.mem, userAddr);
    var stack := WordRead(userAddr, sp);
    r := t.(trace := t.trace + [stack] + [Jump(sp, pc)]);
    var steps := [vector] + TeardownEvents(t.fpec.cr, mapleHardware, t.rcc.cr, t.rcc.cfgr) + [stack];
    assert r.trace == m.trace + steps + [Jump(sp, pc)];
    assert r.trace[|m.trace|..] == steps + [Jump(sp, pc)];
    assert r.trace[|m.trace|] == steps[0] == vector;
    assert r.trace[|r.trace| - 2] == steps[|steps| - 1] == stack;
    assert r.trace[..|r.trace| - 1] == m.trace + steps;
    HandoffEventStages(vector, t.fpec.cr, mapleHardware, t.rcc.cr, t.rcc.cfgr, stack, Jump(sp, pc));
    ContinuesAppend(m.trace, steps);
  }

  /** The three RCC writes `systemReset` ends with. */
  function ResetWrites(cr: bv32, cfgr: bv32): seq<Event>
  {
    [Write(RccCr, cr), Write(RccCfgr, cfgr), Write(RccCir, 0)]
  }

  /** The USB bus step, present unless built for Maple hardware. */
  function BusEvents(mapleHardware: bool): seq<Event>
  {
    if mapleHardware then [] else [UsbBusDisabled]
  }

  /**
    The events of the tear-down, in order: the flash lock write, the USB
    interrupt step, the NVIC writes, the USB bus step unless on Maple
    hardware, and the three RCC writes of `systemReset`.
   */
  function TeardownEvents(lock: bv32, mapleHardware: bool, cr: bv32, cfgr: bv32): seq<Event>
  {
    [Write(FlashCr, lock)] + [UsbIsrDisabled] + DisableWrites() + BusEvents(mapleHardware) + ResetWrites(cr, cfgr)
  }

  /**
    The tear-down between reading the entry point and loading the stack
    pointer: flash locked, USB interrupt off, NVIC cleared and SysTick
    stopped, USB bus off unless on Maple hardware, clocks reset. Memory is
    not written.
   */
  method TearDown(m: Machine, mapleHardware: bool) returns (t: Machine)
    requires m.Valid()
    ensures t.Valid()
    ensures t.fpec.cr == CR_LOCK
    ensures forall c: bv8 :: EnableWord(c) < 2 ==> !IsEnabled(t.nvic, c) && !IsPending(t.nvic, c)
    ensures t.stkCtrl & (STK_ENABLE | STK_TICKINT) == 0
    ensures t.rcc == SystemReset(m.rcc)
    ensures t.aircr == m.aircr && t.mem == m.mem
    ensures t.trace == m.trace + TeardownEvents(CR_LOCK, mapleHardware, t.rcc.cr, t.rcc.cfgr)
  {
    var m1 := Lock(m);
    var m2 := NvicDisableInterrupts(m1.(trace := m1.trace + [UsbIsrDisabled]));
    t := ResetClocks(m2.(trace := m2.trace + BusEvents(mapleHardware)));
  }

  /**
    The hand-off's events show its stages in order, and none before the
    jump is terminal.
   */
  lemma HandoffEventStages(vector: Event, lock: bv32, mapleHardware: bool, cr: bv32, cfgr: bv32,
                           stack: Event, jump: Event)
    requires vector.WordRead? && stack.WordRead? && jump.Jump?
    ensures Collect([vector] + TeardownEvents(lock, mapleHardware, cr, cfgr) + [stack] + [jump], StageOf)
         == HandoffStages(mapleHardware)
    ensures var s := [vector] + TeardownEvents(lock, mapleHardware, cr, cfgr) + [stack];
      forall i :: 0 <= i < |s| ==> !Terminal(s[i])
  {
    var a := [vector] + TeardownEvents(lock, mapleHardware, cr, cfgr);
    TeardownStages(lock, mapleHardware, cr, cfgr);
    CollectAppend([vector], TeardownEvents(lock, mapleHardware, cr, cfgr), StageOf);
    CollectOne(vector, StageOf);
    CollectSnoc(a, stack, StageOf);
    CollectSnoc(a + [stack], jump, StageOf);
    TeardownNotTerminal(lock, mapleHardware, cr, cfgr);
  }

  /** The stages of the tear-down alone. */
  lemma TeardownStages(lock: bv32, mapleHardware: bool, cr: bv32, cfgr: bv32)
    ensures Collect(TeardownEvents(lock, mapleHardware, cr, cfgr), StageOf)
         == [FlashLocked, UsbIsrOff, NvicCleared] + (if mapleHardware then [] else [UsbBusOff]) + [ClocksReset]
  {
    var b1 := [Write(FlashCr, lock)] + [UsbIsrDisabled];
    var b2 := b1 + DisableWrites();
    var b3 := b2 + BusEvents(mapleHardware);
    assert Collect(b1, StageOf) == [FlashLocked, UsbIsrOff] by {
      CollectSnoc([Write(FlashCr, lock)], UsbIsrDisabled, StageOf);
      CollectOne(Write(FlashCr, lock), StageOf);
    }
    assert Collect(b2, StageOf) == [FlashLocked, UsbIsrOff, NvicCleared] by {
      CollectAppend(b1, DisableWrites(), StageOf);
      DisableWritesStage();
    }
    BusStage(mapleHardware);
    ResetWritesStage(cr, cfgr);
    CollectAppend(b2, BusEvents(mapleHardware), StageOf);
    CollectAppend(b3, ResetWrites(cr, cfgr), StageOf);
  }

  /** No tear-down event is terminal. */
  lemma TeardownNotTerminal(lock: bv32, mapleHardware: bool, cr: bv32, cfgr: bv32)
    ensures forall e | e in TeardownEvents(lock, mapleHardware, cr, cfgr) :: !Terminal(e)
  {
  }

  /** The USB bus step starts its stage exactly when it is present. */
  lemma BusStage(mapleHardware: bool)
    ensures Collect(BusEvents(mapleHardware), StageOf) == if mapleHardware then [] else [UsbBusOff]
  {
    if !mapleHardware {
      CollectOne(UsbBusDisabled, StageOf);
    }
  }

  /** Of the NVIC tear-down writes only the first, to ICER[0], starts a stage. */
  lemma DisableWritesStage()
    ensures Collect(DisableWrites(), StageOf) == [NvicCleared]
  {
    var dw := DisableWrites();
    assert dw == [dw[0]] + dw[1..];
    CollectAppend([dw[0]], dw[1..], StageOf);
    CollectOne(dw[0], StageOf);
    CollectNone(dw[1..], StageOf);
  }

  /** Of the three RCC writes of `systemReset` only the first, to CR, starts a stage. */
  lemma ResetWritesStage(cr: bv32, cfgr: bv32)
    ensures Collect(ResetWrites(cr, cfgr), StageOf) == [ClocksReset]
  {
    var w := ResetWrites(cr, cfgr);
    assert w == [w[0]] + w[1..];
    CollectAppend([w[0]], w[1..], StageOf);
    CollectOne(w[0], StageOf);
    CollectNone(w[1..], StageOf);
  }
}

=== FILE: interrupts.dfy ===
/**
  Interrupt setup and teardown: `nvicInit` programs one channel's priority
  byte and enables it; `nvicDisableInterrupts` disables and clears every
  channel and stops SysTick.

  The NVIC registers follow the ARMv7-M architecture: a 1 written to
  ISER/ICER sets/clears the channel's enable bit, a 1 written to ICPR clears
  its pending bit, zeros have no effect; IPR holds one priority byte per
  channel, of which the STM32F1 implements the upper four bits.
 */
module Interrupts {
  import opened Registers

  /** The fields of NVIC_InitTypeDef that `nvicInit` reads. */
  datatype NvicInitStruct = NvicInitStruct(channel: bv8, preemption: bv8, sub: bv8)

  /** The IPR word holding a channel's priority byte. */
  function IprWord(channel: bv8): nat
  {
    (channel >> 2) as nat
  }

  /** The byte lane of that word. */
  function IprLane(channel: bv8): bv32
  {
    (channel & 0x03) as bv32
  }

  /** The enable/pending word holding a channel's bit. */
  function EnableWord(channel: bv8): nat
  {
    (channel >> 5) as nat
  }

  /** The channel's bit within that word. */
  function EnableBit(channel: bv8): bv32
  {
    (channel & 0x1F) as bv32
  }

  /** Byte lane `lane` (0..3) of a 32-bit register. */
  function Lane(x: bv32, lane: bv32): bv8
    requires lane < 4
  {
    ((x >> (lane * 8)) & 0xFF) as bv8
  }

  /** AIRCR's PRIGROUP field (bits 10..8). */
  function PriorityGroup(aircr: bv32): bv32
  {
    (aircr & 0x700) >> 8
  }

  /**
    `nvicInit` is only defined for PRIGROUP >= 3: below that, `0x4 -
    tmppriority` wraps around and the preemption priority is shifted by more
    than the register width.
   */
  predicate GroupingSupported(aircr: bv32)
  {
    PriorityGroup(aircr) >= 3
  }

  /**
    `tmppriority` before it is moved into its lane: the preemption priority
    shifted above the sub-priority bits, and the sub-priority limited to
    `0x0F >> tmppriority`. The low `4 - tmppriority` bits hold exactly the
    kept sub-priority bits, and the preemption priority sits whole above them.
   */
  function PriorityNibble(aircr: bv32, s: NvicInitStruct): (n: bv32)
    requires GroupingSupported(aircr)
    ensures n & (0x0F >> PreemptionBits(aircr)) == (s.sub as bv32) & (0x0F >> PreemptionBits(aircr))
    ensures n >> (4 - PreemptionBits(aircr)) == s.preemption as bv32
  {
    var tmppriority := (0x700 - (aircr & 0x700)) >> 0x08;
    var tmppre := 0x4 - tmppriority;
    var tmpsub := 0x0F >> tmppriority;
    ((s.preemption as bv32) << tmppre) | ((s.sub as bv32) & tmpsub)
  }

  /** The single bit of `channel` in its enable/pending word (`0x01 << (channel & 0x1F)`). */
  function ChannelBit(channel: bv8): (v: bv32)
  {
    0x01 << EnableBit(channel)
  }

  /** Channel `channel` is enabled. */
  predicate IsEnabled(n: Nvic, channel: bv8)
    requires EnableWord(channel) < |n.enabled|
  {
    n.enabled[EnableWord(channel)] & ChannelBit(channel) != 0
  }

  /** Channel `channel` is pending. */
  predicate IsPending(n: Nvic, channel: bv8)
    requires EnableWord(channel) < |n.pending|
  {
    n.pending[EnableWord(channel)] & ChannelBit(channel) != 0
  }

  /** Distinct channels of one word have distinct, non-overlapping bits. */
  lemma ChannelBitsDisjoint(a: bv8, b: bv8)
    requires a != b && EnableWord(a) == EnableWord(b)
    ensures ChannelBit(a) & ChannelBit(b) == 0
  {
    assert EnableBit(a) != EnableBit(b);
  }

  /** A write of `v` to a write-one-to-set register (ISER) over `words[i]`. */
  function WriteOneToSet(words: seq<bv32>, i: nat, v: bv32): seq<bv32>
    requires i < |words|
  {
    words[i := words[i] | v]
  }

  /** A write of `v` to a write-one-to-clear register (ICER, ICPR) over `words[i]`. */
  function WriteOneToClear(words: seq<bv32>, i: nat, v: bv32): seq<bv32>
    requires i < |words|
  {
    words[i := words[i] & !v]
  }

  /** The mask of byte lane `lane` (`0xFF << (lane * 8)`). */
  function LaneMask(lane: bv32): bv32
    requires lane < 4
  {
    0xFF << (lane * 0x08)
  }

  /**
    The IPR read-modify-write of `nvicInit`: `nibble` shifted into the high
    half of byte lane `lane`, every other lane kept. Byte by byte: lane
    `lane` is the nibble's low four bits over zero, every other byte is the
    old one.
   */
  function IprMerge(reg: bv32, lane: bv32, nibble: bv32): (r: bv32)
    requires lane < 4
    ensures Lane(r, lane) == ((nibble & 0x0F) as bv8) << 4
    ensures forall l: bv32 :: l < 4 && l != lane ==> Lane(r, l) == Lane(reg, l)
  {
    forall l: bv32 | l < 4 && l != lane
      ensures Lane(MergeBits(reg, lane, nibble), l) == Lane(reg, l)
    {
      MergeKeepsByte(reg, lane, nibble, l);
    }
    MergeSetsByte(reg, lane, nibble);
    MergeBits(reg, lane, nibble)
  }

  /** The bit operations of the IPR read-modify-write. */
  function MergeBits(reg: bv32, lane: bv32, nibble: bv32): bv32
    requires lane < 4
  {
    var tmppriority := (nibble << 0x04) << (lane * 0x08);
    var tmpmask := LaneMask(lane);
    (reg & !tmpmask) | (tmppriority & tmpmask)
  }

  /** Byte `l` of the merged word, for a lane other than `lane`, is the old byte. */
  lemma MergeKeepsByte(reg: bv32, lane: bv32, nibble: bv32, l: bv32)
    requires lane < 4 && l < 4 && l != lane
    ensures Lane(MergeBits(reg, lane, nibble), l) == Lane(reg, l)
  {
  }

  /** Byte `lane` of the merged word is the nibble over zero. */
  lemma MergeSetsByte(reg: bv32, lane: bv32, nibble: bv32)
    requires lane < 4
    ensures Lane(MergeBits(reg, lane, nibble), lane) == ((nibble & 0x0F) as bv8) << 4
  {
  }

  /** The merge leaves every lane but `lane` as it was. */
  lemma IprMergeKeepsOtherLanes(reg: bv32, lane: bv32, nibble: bv32)
    requires lane < 4
    ensures IprMerge(reg, lane, nibble) & !LaneMask(lane) == reg & !LaneMask(lane)
  {
  }

  /** The merged lane holds the low four bits of `nibble` in its high half and zero below. */
  lemma IprMergeLane(reg: bv32, lane: bv32, nibble: bv32)
    requires lane < 4
    ensures Lane(IprMerge(reg, lane, nibble), lane) & 0x0F == 0
    ensures Lane(IprMerge(reg, lane, nibble), lane) >> 4 == (nibble & 0x0F) as bv8
  {
  }

  /**
    `nvicInit`: a read-modify-write of the channel's IPR word that replaces
    its byte lane by the priority (high nibble; the low nibble is zero), then
    a write of the channel's single bit to ISER. No other lane, IPR word,
    enable bit or pending bit changes.
   */
  function NvicInit(m: Machine, s: NvicInitStruct): (r: Machine)
    requires GroupingSupported(m.aircr)
    requires IprWord(s.channel) < |m.nvic.ipr| && EnableWord(s.channel) < |m.nvic.enabled|
    ensures |r.nvic.ipr| == |m.nvic.ipr| && |r.nvic.enabled| == |m.nvic.enabled|
    ensures forall i :: 0 <= i < |m.nvic.ipr| && i != IprWord(s.channel) ==> r.nvic.ipr[i] == m.nvic.ipr[i]
    ensures var w := IprWord(s.channel);
      r.nvic.ipr[w] & !LaneMask(IprLane(s.channel)) == m.nvic.ipr[w] & !LaneMask(IprLane(s.channel))
    ensures Lane(r.nvic.ipr[IprWord(s.channel)], IprLane(s.channel)) & 0x0F == 0
    ensures Lane(r.nvic.ipr[IprWord(s.channel)], IprLane(s.channel)) >> 4 == (PriorityNibble(m.aircr, s) & 0x0F) as bv8
    ensures IsEnabled(r.nvic, s.channel)
    ensures r.nvic.pending == m.nvic.pending
    ensures r.rcc == m.rcc && r.fpec == m.fpec && r.aircr == m.aircr && r.stkCtrl == m.stkCtrl && r.mem == m.mem
  {
    var w := IprWord(s.channel);
    var tmpreg := IprMerge(m.nvic.ipr[w], IprLane(s.channel), PriorityNibble(m.aircr, s));
    IprMergeKeepsOtherLanes(m.nvic.ipr[w], IprLane(s.channel), PriorityNibble(m.aircr, s));
    IprMergeLane(m.nvic.ipr[w], IprLane(s.channel), PriorityNibble(m.aircr, s));
    var m1 := Emit(m.(nvic := m.nvic.(ipr := m.nvic.ipr[w := tmpreg])), Write(NvicIpr(w), tmpreg));
    var e := EnableWord(s.channel);
    Emit(m1.(nvic := m1.nvic.(enabled := WriteOneToSet(m1.nvic.enabled, e, ChannelBit(s.channel)))),
         Write(NvicIser(e), ChannelBit(s.channel)))
  }

  /** `nvicInit` changes the enable bit of no channel but its own. */
  lemma NvicInitEnablesOnlyItsChannel(m: Machine, s: NvicInitStruct, c: bv8)
    requires GroupingSupported(m.aircr)
    requires IprWord(s.channel) < |m.nvic.ipr| && EnableWord(s.channel) < |m.nvic.enabled|
    requires EnableWord(c) < |m.nvic.enabled| && c != s.channel
    ensures IsEnabled(NvicInit(m, s).nvic, c) <==> IsEnabled(m.nvic, c)
  {
    if EnableWord(c) == EnableWord(s.channel) {
      ChannelBitsDisjoint(c, s.channel);
    }
  }

  /**
    The group (preemption) priority the NVIC reads from a priority byte:
    the bits above PRIGROUP (section B1.5.4 of the ARMv7-M Architecture
    Reference Manual).
   */
  function GroupPriority(aircr: bv32, byte: bv8): bv8
  {
    byte >> (PriorityGroup(aircr) + 1)
  }

  /** The sub-priority the NVIC reads from a priority byte: bits PRIGROUP..0. */
  function SubPriority(aircr: bv32, byte: bv8): bv8
  {
    byte & (((1 as bv8) << (PriorityGroup(aircr) + 1)) - 1)
  }

  /** The number of preemption-priority bits, `tmppriority` in the source. */
  function PreemptionBits(aircr: bv32): bv32
  {
    (0x700 - (aircr & 0x700)) >> 0x08
  }

  /**
    The priority byte `nvicInit` stores decodes, under the NVIC's own
    reading of PRIGROUP, to the requested preemption and sub-priority,
    whenever each fits in the bits the grouping gives it.
   */
  lemma PriorityRoundTrip(m: Machine, s: NvicInitStruct)
    requires GroupingSupported(m.aircr)
    requires IprWord(s.channel) < |m.nvic.ipr| && EnableWord(s.channel) < |m.nvic.enabled|
    requires s.preemption as bv32 < (1 as bv32) << PreemptionBits(m.aircr)
    requires s.sub as bv32 < (1 as bv32) << (4 - PreemptionBits(m.aircr))
    ensures var byte := Lane(NvicInit(m, s).nvic.ipr[IprWord(s.channel)], IprLane(s.channel));
      GroupPriority(m.aircr, byte) == s.preemption && SubPriority(m.aircr, byte) >> 4 == s.sub
  {
    var byte := Lane(NvicInit(m, s).nvic.ipr[IprWord(s.channel)], IprLane(s.channel));
    var nib := PriorityNibble(m.aircr, s);
    assert byte == ((nib & 0x0F) as bv8) << 4;
    NibbleDecodes(m.aircr, s);
  }

  /** The nibble `nvicInit` computes, placed in the high half of a byte, decodes to its inputs. */
  lemma NibbleDecodes(aircr: bv32, s: NvicInitStruct)
    requires GroupingSupported(aircr)
    requires s.preemption as bv32 < (1 as bv32) << PreemptionBits(aircr)
    requires s.sub as bv32 < (1 as bv32) << (4 - PreemptionBits(aircr))
    ensures var byte := ((PriorityNibble(aircr, s) & 0x0F) as bv8) << 4;
      GroupPriority(aircr, byte) == s.preemption && SubPriority(aircr, byte) >> 4 == s.sub
  {
    var g := PriorityGroup(aircr);
    assert g == 3 || g == 4 || g == 5 || g == 6 || g == 7;
  }

  /** The sub-priority reaches the register only through its bits under `0x0F >> tmppriority`. */
  lemma SubPriorityMasked(m: Machine, s: NvicInitStruct, sub: bv8)
    requires GroupingSupported(m.aircr)
    requires IprWord(s.channel) < |m.nvic.ipr| && EnableWord(s.channel) < |m.nvic.enabled|
    requires (s.sub as bv32) & (0x0F >> PreemptionBits(m.aircr)) == (sub as bv32) & (0x0F >> PreemptionBits(m.aircr))
    ensures NvicInit(m, s.(sub := sub)) == NvicInit(m, s)
  {
    assert PriorityNibble(m.aircr, s.(sub := sub)) == PriorityNibble(m.aircr, s);
  }

  // SysTick CTRL bits (section B3.3.3 of the ARMv7-M Architecture Reference Manual)
  const STK_ENABLE: bv32    := 0x0000_0001
  const STK_TICKINT: bv32   := 0x0000_0002
  const STK_CLKSOURCE: bv32 := 0x0000_0004

  /**
    `nvicDisableInterrupts`: all ones to ICER[0..1] and ICPR[0..1], so every
    channel 0..63 ends disabled and not pending, then SysTick stopped with
    its exception off and the core clock selected. Priorities stay.
   */
  function NvicDisableInterrupts(m: Machine): (r: Machine)
    requires m.Valid()
    ensures r.Valid()
    ensures forall c: bv8 :: EnableWord(c) < 2 ==> !IsEnabled(r.nvic, c) && !IsPending(r.nvic, c)
    ensures r.nvic.ipr == m.nvic.ipr
    ensures r.stkCtrl & STK_ENABLE == 0 && r.stkCtrl & STK_TICKINT == 0 && r.stkCtrl & STK_CLKSOURCE != 0
    ensures r.rcc == m.rcc && r.fpec == m.fpec && r.aircr == m.aircr && r.mem == m.mem
    ensures r.trace == m.trace + DisableWrites()
  {
    var m1 := Emit(m.(nvic := m.nvic.(enabled := WriteOneToClear(m.nvic.enabled, 0, 0xFFFF_FFFF))),
                   Write(NvicIcer(0), 0xFFFF_FFFF));
    var m2 := Emit(m1.(nvic := m1.nvic.(enabled := WriteOneToClear(m1.nvic.enabled, 1, 0xFFFF_FFFF))),
                   Write(NvicIcer(1), 0xFFFF_FFFF));
    var m3 := Emit(m2.(nvic := m2.nvic.(pending := WriteOneToClear(m2.nvic.pending, 0, 0xFFFF_FFFF))),
                   Write(NvicIcpr(0), 0xFFFF_FFFF));
    var m4 := Emit(m3.(nvic := m3.nvic.(pending := WriteOneToClear(m3.nvic.pending, 1, 0xFFFF_FFFF))),
                   Write(NvicIcpr(1), 0xFFFF_FFFF));
    Emit(m4.(stkCtrl := 0x0000_0004), Write(StkCtrl, 0x0000_0004))
  }

  /**
    The writes of `nvicDisableInterrupts`, in order: both enable words
    cleared, both pending words cleared, then SysTick's control register.
   */
  function DisableWrites(): seq<Event>
  {
    [Write(NvicIcer(0), 0xFFFF_FFFF), Write(NvicIcer(1), 0xFFFF_FFFF),
     Write(NvicIcpr(0), 0xFFFF_FFFF), Write(NvicIcpr(1), 0xFFFF_FFFF),
     Write(StkCtrl, 0x0000_0004)]
  }
}

=== FILE: registers.dfy ===
/**
  Shared vocabulary of the STM32F1 bootloader's hardware layer: unsigned
  address arithmetic, the memory image the core reads and programs, the
  memory-mapped register blocks it touches (RCC, flash controller, NVIC,
  SysTick) and the ordered trace of externally visible effects.

  Registers are 32-bit bit-vectors. The bootloader owns no software copy of
  hardware state: a `Machine` is the model's view of the register blocks,
  and `trace` records every write, wait and terminal transfer in program
  order.
 */
module Registers {

  /** An unsigned 32-bit integer used as an address; wrap-around is explicit. */
  type u32 = x: int | 0 <= x < 0x1_0000_0000

  /** An unsigned 16-bit integer (the flash size identification register). */
  type u16 = x: int | 0 <= x < 0x1_0000

  const ADDRESS_SPACE: int := 0x1_0000_0000

  /** `a + k` in C's unsigned 32-bit arithmetic. */
  function Offset(a: u32, k: nat): (r: u32)
    ensures a + k < ADDRESS_SPACE ==> r == a + k
    ensures a + k >= ADDRESS_SPACE ==> r == a + k - ADDRESS_SPACE || k >= ADDRESS_SPACE
  {
    (a + k) % ADDRESS_SPACE
  }

  /** The lower half-word of a word (`word & 0x0000FFFF`). */
  function LowHalf(w: bv32): bv16
  {
    (w & 0x0000_FFFF) as bv16
  }

  /** The upper half-word of a word (`(word & 0xFFFF0000) >> 16`). */
  function HighHalf(w: bv32): bv16
  {
    ((w & 0xFFFF_0000) >> 16) as bv16
  }

  /** The word whose halves are `hi` and `lo`. */
  function JoinHalves(hi: bv16, lo: bv16): bv32
  {
    ((hi as bv32) << 16) | (lo as bv32)
  }

  /** Splitting a word and joining the halves again gives the word back. */
  lemma JoinSplit(w: bv32)
    ensures JoinHalves(HighHalf(w), LowHalf(w)) == w
  {
  }

  /** Joining two halves and splitting again gives the halves back. */
  lemma SplitJoin(hi: bv16, lo: bv16)
    ensures HighHalf(JoinHalves(hi, lo)) == hi
    ensures LowHalf(JoinHalves(hi, lo)) == lo
  {
  }

  /** Setting `bits` sets them and leaves every other bit alone. */
  lemma SetBitsFrame(a: bv32, bits: bv32)
    ensures (a | bits) & bits == bits
    ensures (a | bits) & !bits == a & !bits
  {
  }

  /**
    Memory as the core sees it: half-words by byte address. A 32-bit word is
    little-endian: its low half lives at the word's address, its high half two
    bytes above.
   */
  type Memory = map<u32, bv16>

  /** Both halves of the word at `a` can be read. */
  predicate Readable(mem: Memory, a: u32)
  {
    a in mem && Offset(a, 2) in mem
  }

  /** The 32-bit word at `a` (`*(vu32 *)a`). */
  function ReadWord(mem: Memory, a: u32): bv32
    requires Readable(mem, a)
  {
    JoinHalves(mem[Offset(a, 2)], mem[a])
  }

  /** Reset and clock control: CR, CFGR, CIR and APB2ENR. */
  datatype Rcc = Rcc(cr: bv32, cfgr: bv32, cir: bv32, apb2enr: bv32)

  /** Flash program/erase controller: ACR, CR and the address register AR. */
  datatype Fpec = Fpec(acr: bv32, cr: bv32, ar: u32)

  /**
    Nested vectored interrupt controller: one enable bit and one pending bit
    per channel, 32 channels per word, and four 8-bit priority lanes per IPR
    word.
   */
  datatype Nvic = Nvic(enabled: seq<bv32>, pending: seq<bv32>, ipr: seq<bv32>)

  /** Registers the core writes. */
  datatype Reg =
    | RccCr | RccCfgr | RccCir | RccApb2enr
    | FlashAcr | FlashCr | FlashKeyr
    | NvicIser(word: nat) | NvicIcer(word: nat) | NvicIcpr(word: nat) | NvicIpr(word: nat)
    | StkCtrl | AfioMapr

  /** Hardware conditions the core waits for without a timeout. */
  datatype Condition = HseReady | SysclkIsPll | FlashIdle

  /** One externally visible effect, in program order. */
  datatype Event =
    | Write(reg: Reg, value: bv32)
    | EraseAddress(page: u32)                // FLASH->AR := page
    | Await(cond: Condition)                 // unbounded busy-wait until `cond`
    | PllCountdown(polls: nat, counter: nat) // bounded PLL poll: reads made, counter left
    | HalfWordWrite(addr: u32, half: bv16)
    | WordRead(addr: u32, word: bv32)
    | UsbIsrDisabled                         // usbDsbISR()
    | UsbBusDisabled                         // usbDsbBus()
    | HardReset                              // systemHardReset(): never returns
    | Jump(sp: bv32, pc: bv32)               // MSP := sp, then call pc: never returns

  /** An event after which this system runs no more code. */
  predicate Terminal(e: Event)
  {
    e.HardReset? || e.Jump?
  }

  /**
    `after` is `before` followed by events none of which is terminal: the
    code that produced them returns to its caller.
   */
  predicate Continues(before: seq<Event>, after: seq<Event>)
  {
    before <= after && forall i :: |before| <= i < |after| ==> !Terminal(after[i])
  }

  /** Continuing twice is continuing. */
  lemma ContinuesTrans(a: seq<Event>, b: seq<Event>, c: seq<Event>)
    requires Continues(a, b) && Continues(b, c)
    ensures Continues(a, c)
  {
    assert forall i :: |a| <= i < |b| ==> c[i] == b[i];
  }

  /** Appending events none of which is terminal continues the trace. */
  lemma ContinuesAppend(t: seq<Event>, s: seq<Event>)
    requires forall i :: 0 <= i < |s| ==> !Terminal(s[i])
    ensures Continues(t, t + s)
  {
    assert forall i :: |t| <= i < |t + s| ==> (t + s)[i] == s[i - |t|];
  }

  /** The hardware state the core reads and writes, with the effects so far. */
  datatype Machine = Machine(
    rcc: Rcc,
    fpec: Fpec,
    nvic: Nvic,
    aircr: bv32,
    stkCtrl: bv32,
    mem: Memory,
    trace: seq<Event>)
  {
    /** The NVIC has two enable words and two pending words: channels 0..63. */
    predicate Valid()
    {
      |nvic.enabled| == 2 && |nvic.pending| == 2
    }
  }

  /** Appends `e` to the trace and changes nothing else. */
  function Emit(m: Machine, e: Event): (r: Machine)
    ensures r.trace == m.trace + [e]
    ensures r.(trace := m.trace) == m
  {
    m.(trace := m.trace + [e])
  }

  /**
    The items `pick` extracts from each event of `t`, in trace order: the
    projection the ordering properties of the core are stated over.
   */
  function Collect<T>(t: seq<Event>, pick: Event -> seq<T>): seq<T>
  {
    if t == [] then [] else pick(t[0]) + Collect(t[1..], pick)
  }

  /** Collecting over a concatenation collects over each part, in order. */
  lemma {:induction false} CollectAppend<T>(a: seq<Event>, b: seq<Event>, pick: Event -> seq<T>)
    ensures Collect(a + b, pick) == Collect(a, pick) + Collect(b, pick)
    decreases |a|
  {
    if a == [] {
      assert a + b == b;
    } else {
      assert (a + b)[1..] == a[1..] + b;
      CollectAppend(a[1..], b, pick);
    }
  }

  /** Collecting over a single event is picking from it. */
  lemma CollectOne<T>(e: Event, pick: Event -> seq<T>)
    ensures Collect([e], pick) == pick(e)
  {
    assert [e][1..] == [];
  }

  /** Collecting over a trace with one more event at its end. */
  lemma CollectSnoc<T>(t: seq<Event>, e: Event, pick: Event -> seq<T>)
    ensures Collect(t + [e], pick) == Collect(t, pick) + pick(e)
  {
    CollectAppend(t, [e], pick);
    CollectOne(e, pick);
  }

  /** Nothing is collected from a trace none of whose events yields an item. */
  lemma {:induction false} CollectNone<T>(t: seq<Event>, pick: Event -> seq<T>)
    requires forall i :: 0 <= i < |t| ==> pick(t[i]) == []
    ensures Collect(t, pick) == []
    decreases |t|
  {
    if t != [] {
      CollectNone(t[1..], pick);
    }
  }

  /** Collecting over `a + [e] + b`, where `b` yields nothing. */
  lemma CollectThrough<T>(a: seq<Event>, e: Event, b: seq<Event>, pick: Event -> seq<T>)
    requires forall i :: 0 <= i < |b| ==> pick(b[i]) == []
    ensures Collect(a + [e] + b, pick) == Collect(a, pick) + pick(e)
  {
    CollectAppend(a + [e], b, pick);
    CollectAppend(a, [e], pick);
    CollectOne(e, pick);
    CollectNone(b, pick);
  }
}
